=== FILE: README.md ===
# Momentum-versus-market bot: decision pipeline in Dafny

This project models the decision pipeline of a Polymarket 15-minute "up or down"
bot, which exists in two near-duplicate variants: `src_arbitrage-bot_Version4.ts`
(called Version4 below) and `arbitrage-bot.ts`. A Binance trade stream fills a
five-minute price buffer. Momentum over a look-back window becomes a
probability estimate (UP, DOWN or NEUTRAL). That estimate is compared with the
market's quoted probability. When the edge reaches the configured minimum, the
bot counts an opportunity. The clock (`Date.now()`) is the parameter `nowMs`.
Everything else a tick reads from the outside is an input value: the price
buffer as the feed has filled it, the market lookup, the market listing and
the midpoint quote. In both bots momentum is computed from that buffer and the
market comes from the modelled lookup or listing search.

Modules, one file each:

- `Wrappers` (`wrappers.dfy`): `Option`, the model of `null`.
- `Text` (`text.dfy`): ASCII lower-casing, `includes`, decimal rendering and digit parsing.
- `PriceFeed` (`price_feed.dfy`): ingest-and-prune, `getCurrentPrice` and `calculateMomentum`. The code is the same in both variants.
- `FeedConnection` (`feed_connection.dfy`): the reconnect-attempt counter and the feed as an event-driven state.
- `MarketCalculator` (`market_calculator.dfy`): 15-minute round starts, slugs, time left, and the timestamp read back from a slug (Version4).
- `GammaMarkets` (`gamma_markets.dfy`): the market record mapping, current-or-next round selection, and the not-found quote (Version4).
- `BotConfig` (`bot_config.dfy`): the strategy settings and the shipped values.
- `Probability` (`probability.dfy`): `calculateRealProbability`, which is the same in both variants.
- `Analysis` (`analysis.dfy`): Version4's `analyze`.
- `ClobMarkets` (`clob_markets.dfy`): `findBtc15MinMarket` and the token search of `arbitrage-bot.ts`.
- `Opportunity` (`opportunity.dfy`): `findOpportunity` of `arbitrage-bot.ts`. Its `MarketPrice` models `getMarketPrice`: a missing midpoint becomes 0.5.
- `MainLoop` (`main_loop.dfy`): one loop iteration of each variant as a pure state transition, and runs of many iterations.

Prices and probabilities are `real`, which is exact arithmetic. Timestamps are
`int` milliseconds.

Three facts about the code shape the model:

- There is no quote cache or TTL. Every tick looks the market up again.
- No execution path is live. The trading blocks are commented out in both files, so `trades` and `lastTradeTime` never change, and no execution-failure cooldown policy exists.
- The cooldown gate of `arbitrage-bot.ts` applies before evaluation and without the "a trade has happened" condition. Only Version4 evaluates first and gates only once `lastTradeTime > 0`.

## Model

| member | source | states |
|---|---|---|
| PriceFeed.Ingest | src_arbitrage-bot_Version4.ts:79-83 | every retained point is newer than now − 300000 ms; the result is the pruned old buffer followed by the new point, which is last; a point is retained iff it was buffered and newer than the cutoff, or is the new point |
| PriceFeed.PruneMembers | arbitrage-bot.ts:84-85 | a point survives the prune iff it was in the buffer with a timestamp strictly after the cutoff |
| PriceFeed.PruneAppend | arbitrage-bot.ts:84-85 | pruning distributes over concatenation, so surviving points keep their relative order |
| PriceFeed.PruneSortedIsSuffix | arbitrage-bot.ts:81-85 | on a time-ordered buffer the survivors of the prune form a suffix of it |
| PriceFeed.IngestSorted | arbitrage-bot.ts:79-85 | if the buffer is time-ordered and no point is after now, ingest gives a suffix of the old buffer plus the new point, still time-ordered |
| PriceFeed.IngestKeepsPricesPositive | src_arbitrage-bot_Version4.ts:77-83 | ingesting a positive price keeps every buffered price positive |
| PriceFeed.CurrentPrice | src_arbitrage-bot_Version4.ts:100-103 | null iff the buffer is empty; otherwise the price of the last buffered point |
| PriceFeed.CurrentPriceAfterIngest | src_arbitrage-bot_Version4.ts:100-103 | after ingesting a tick, the current price is that tick's price (never null) |
| PriceFeed.PastPointsMembers | src_arbitrage-bot_Version4.ts:111 | a point is in the past-prices filter iff it is buffered at or before the cutoff |
| PriceFeed.LastPastPointIsReference | arbitrage-bot.ts:121-124 | the last element of the past-prices filter is the last buffered point at or before the cutoff |
| PriceFeed.CalculateMomentum | src_arbitrage-bot_Version4.ts:105-118 | unavailable iff fewer than 2 points or no point at or before now − window·1000; otherwise (latest − ref)/ref·100, where ref is the last point at or before the cutoff |
| PriceFeed.MomentumFromReference | src_arbitrage-bot_Version4.ts:105-118 | with two or more points, whichever point is the last at or before the cutoff, momentum is exactly the percent change from its price to the latest price |
| PriceFeed.MomentumShiftInvariant | arbitrage-bot.ts:115-128 | a buffer with every timestamp moved by the same amount (prices kept), read with the clock moved by that amount, keeps positive prices and has the same momentum |
| FeedConnection.OnClose | arbitrage-bot.ts:103-108 | a close schedules a reconnect iff fewer than 10 attempts were made, and then counts one more; the counter never passes 10 |
| FeedConnection.Step | src_arbitrage-bot_Version4.ts:69-96 | an open resets the counter to 0 and keeps the buffer; a close keeps the buffer and moves the counter as the close handler does (+1 below 10, else unchanged); a message ingests its price into the buffer (push, then prune to the last 300 s) and leaves the counter alone |
| FeedConnection.RunKeepsPricesPositive | src_arbitrage-bot_Version4.ts:75-84 | over any sequence of events with positive message prices, a buffer of positive prices stays positive, so every reachable buffer meets the momentum precondition |
| FeedConnection.AttemptsStayBounded | arbitrage-bot.ts:62-63 | whatever the sequence of opens, closes and messages, the attempt counter never exceeds maxReconnectAttempts (10) |
| FeedConnection.ReconnectsBoundedWithoutOpen | src_arbitrage-bot_Version4.ts:91-96 | between two successful opens at most 10 reconnects are scheduled in all, and each scheduled one is one counted attempt |
| FeedConnection.ConsecutiveCloses | arbitrage-bot.ts:96-108 | n closes in a row raise the counter to min(start + n, 10) and leave the price buffer as it was |
| FeedConnection.ConnectionEventsKeepPrice | arbitrage-bot.ts:110-113 | opens and closes never change the buffer, so the current price stays the last known one |
| FeedConnection.TenFailedReconnectsStop | arbitrage-bot.ts:104-107 | from a fresh counter, ten failed reconnects reach 10 and the next close schedules nothing |
| MarketCalculator.Get15MinTimestamps | src_arbitrage-bot_Version4.ts:135-148 | current is a multiple of 900 s with current ≤ now < current + 900, and next = current + 900; proved for every clock value, with JavaScript's truncating `%` |
| MarketCalculator.HourRemainder | src_arbitrage-bot_Version4.ts:137-141 | `now % 3600` as JavaScript computes it: strictly between −3600 and 3600, differing from now by a multiple of 3600, non-negative for non-negative now and non-positive for negative now |
| MarketCalculator.RoundStartUnique | src_arbitrage-bot_Version4.ts:136-142 | the round start is the only multiple of 900 in the 900 seconds up to now, so it is the largest one not after now |
| MarketCalculator.BoundaryBelongsToNewRound | src_arbitrage-bot_Version4.ts:136-145 | exactly on a multiple of 900 s, current = now: the boundary belongs to the round that just started |
| MarketCalculator.MinuteThirtySevenExample | src_arbitrage-bot_Version4.ts:137-145 | at minute 37 of an hour, the current round starts at minute 30 and the next at minute 45 |
| MarketCalculator.GetTimeLeft | src_arbitrage-bot_Version4.ts:154-163 | expired iff start + 900 − now ≤ 0; otherwise minutes·60 + seconds = start + 900 − now with 0 ≤ seconds < 60 |
| MarketCalculator.CurrentRoundTimeLeft | src_arbitrage-bot_Version4.ts:155-161 | the current round is never expired and has between 1 second and 15 minutes left |
| MarketCalculator.FormatSlug | src_arbitrage-bot_Version4.ts:150-152 | the slug starts with the lower-cased asset (no upper-case letters) followed by "-updown-15m-" |
| Text.IntToString | src_arbitrage-bot_Version4.ts:150-152 | the rendering of a timestamp in the slug: a non-negative integer renders as digits that parse back to it, with no leading zero unless it is 0; a negative one as '-' followed by such digits for its magnitude |
| MarketCalculator.SlugTimestamp | src_arbitrage-bot_Version4.ts:210-212 | a nonzero result comes from ten trailing digits, and the result is below 10^10; a slug without ten trailing digits gives 0 |
| MarketCalculator.SlugRoundTrip | src_arbitrage-bot_Version4.ts:211-212 | for a ten-digit t, reading the trailing digits of formatSlug(asset, t) gives t back |
| MarketCalculator.ShortTimestampReadsZero | src_arbitrage-bot_Version4.ts:211-212 | for a timestamp of fewer than ten digits, the slug's last ten characters contain a dash, so 0 is read |
| GammaMarkets.PriceAt | src_arbitrage-bot_Version4.ts:221-222 | an outcome price that is missing or zero becomes 0.5, so the mapped price is never 0 |
| GammaMarkets.MarketFromResponse | src_arbitrage-bot_Version4.ts:184-229 | a failed request gives null; otherwise id, question, slug and conditionId are copied, the market is active iff active and not closed, the prices are `prices[0] \|\| 0.5` and `prices[1] \|\| 0.5`, missing token ids are "", and endTimestamp is read from the requested slug |
| GammaMarkets.MarketTimestampFromSlug | src_arbitrage-bot_Version4.ts:210-223 | a market fetched by the slug of a ten-digit round start carries that start as endTimestamp |
| GammaMarkets.GetCurrentMarket | src_arbitrage-bot_Version4.ts:231-247 | an active current-round market is always chosen; any other result is the next round's lookup, so a returned market is active or the next round's; null iff the current round has no active market and the next round's request fails |
| GammaMarkets.CurrentMarketRound | src_arbitrage-bot_Version4.ts:232-246 | for ten-digit round starts, an active current-round market is chosen and ends at the current round start; any returned market is either the active current round or the next round, by its endTimestamp |
| GammaMarkets.GetMarketPrices | src_arbitrage-bot_Version4.ts:302-330 | found iff a market exists; not found gives 0.5/0.5, empty tokens, empty slug, the not-found question and no time left; found copies prices, tokens, question and slug and adds the round's time left |
| GammaMarkets.FetchMarketPrices | src_arbitrage-bot_Version4.ts:302-303 | a found quote never has a zero price |
| GammaMarkets.ActiveCurrentRoundTimeLeft | src_arbitrage-bot_Version4.ts:318 | when the active current round is found, its quote reports between 1 s and 15 min left |
| Probability.CalculateRealProbability | src_arbitrage-bot_Version4.ts:376-391 | UP iff momentum > threshold; DOWN iff momentum < −threshold and not UP; NEUTRAL iff \|momentum\| ≤ threshold, with exactly 0.5; for threshold > 0 a directional probability is min(0.85, 0.55 + \|momentum\|/threshold · 0.15), above 0.70; a zero threshold gives the 0.85 cap |
| Probability.ThresholdIsNeutral | arbitrage-bot.ts:302-313 | momentum exactly at ±threshold is NEUTRAL with 0.5 |
| Probability.EstimateSymmetric | arbitrage-bot.ts:302-309 | with a positive threshold, negating momentum swaps UP and DOWN and keeps the probability |
| Probability.UpConfidenceMonotone | src_arbitrage-bot_Version4.ts:382-384 | with a positive threshold, stronger upward momentum never lowers the UP probability |
| Probability.TwiceThresholdReachesCap | arbitrage-bot.ts:302-305 | momentum of twice the threshold already gives the 0.85 cap |
| Analysis.Analyze | src_arbitrage-bot_Version4.ts:393-433 | shouldTrade iff edge ≥ minEdge, direction ≠ NEUTRAL and market found; null momentum gives NEUTRAL, 0.5, edge 0 and no trade; otherwise the estimate comes from the probability model and edge = (estimate − quoted price of that direction)·100 |
| Analysis.AnalyzeFeed | src_arbitrage-bot_Version4.ts:393-396 | with the buffer and the market lookup at one clock reading: price is null iff the buffer is empty; the quote is found iff getCurrentMarket returns a market, and then has nonzero prices; a trade needs at least two points, a found market and a directional call |
| Analysis.NotFoundNeverTrades | src_arbitrage-bot_Version4.ts:305-316 | the not-found quote never leads to shouldTrade, whatever the momentum |
| Analysis.FailedLookupsNeverTrade | src_arbitrage-bot_Version4.ts:302-316 | when every market request fails, getCurrentMarket returns null, the quote is the not-found fallback, and the tick never trades |
| Analysis.TradeMeansEdge | src_arbitrage-bot_Version4.ts:412-422 | a trade means the estimate beats the upPrice (for UP) or downPrice (for DOWN) by at least minEdge/100 |
| Analysis.ShippedScenario | src_arbitrage-bot_Version4.ts:410-422 | with the shipped settings, momentum 0.30% against an UP price of 0.60 gives UP, 0.85, edge 25 and a trade |
| ClobMarkets.ToBtcMarket | arbitrage-bot.ts:197-203 | conditionId and question are copied; missing tokens become []; a missing or empty tick size becomes "0.01" and a non-empty one is copied; a present negRisk is copied and a missing one becomes false |
| ClobMarkets.FindBtc15MinMarket | arbitrage-bot.ts:184-211 | returns the first listed market whose lower-cased question contains "bitcoin", "15" and "up" or "down"; returns null if none matches or the listing failed; agrees with the recursive reference search on every listing |
| ClobMarkets.FirstBtc15MinIsFirstMatch | arbitrage-bot.ts:189-206 | the recursive reference search finds nothing iff no listed market matches the filter, and otherwise the first match, converted |
| ClobMarkets.FindToken | arbitrage-bot.ts:341-343 | returns the first token whose lower-cased outcome contains the needle, or null iff none does |
| Opportunity.FindOpportunity | arbitrage-bot.ts:316-379 | null for null momentum, a NEUTRAL call, a missing market or a missing token; an opportunity carries the call's direction and probability, the token's quoted price, edge ≥ minEdge, recommendedPrice = min(quote + 0.01, 0.99) and size = betSizeUsdc |
| Opportunity.FindOpportunityFeed | arbitrage-bot.ts:316-337 | the whole of findOpportunity at one clock reading: null with fewer than 2 buffered points, with no point at or before the window's cutoff, with a failed listing or with no matching market; an opportunity's direction and probability are the estimate for the percent change from the reference point to the latest price, and its tick size and negRisk come from the first matching listed market |
| Opportunity.MarketPrice | arbitrage-bot.ts:220-227 | a quoted midpoint is used as it is (even 0); a missing quote gives 0.5 |
| Opportunity.OpportunityIffEdge | arbitrage-bot.ts:350-378 | past the early exits, an opportunity is returned iff (estimate − quote)·100 ≥ minEdge |
| Opportunity.RecommendedPriceBounds | arbitrage-bot.ts:371 | the recommended price is ≤ 0.99, never below a quote that is ≤ 0.99, and the direction is UP or DOWN |
| Opportunity.TargetTokenMatchesDirection | arbitrage-bot.ts:340-343 | the token chosen for UP has "up" in its lower-cased outcome, and the one for DOWN has "down" |
| Opportunity.ShippedScenario | arbitrage-bot.ts:364-375 | with the shipped settings, momentum 0.30% against an "Up" token quoted at 0.60 gives an UP proposal with edge 25, price 0.61 and size 50 |
| MainLoop.Version4Step | src_arbitrage-bot_Version4.ts:482-523 | status is printed iff 5 s have passed since the last print; the tick is skipped iff lastTradeTime > 0 and less than the cooldown has passed; otherwise opportunities grows by 1 exactly when shouldTrade; trades and lastTradeTime never change |
| MainLoop.Version4RunCountsEverySignal | src_arbitrage-bot_Version4.ts:493-518 | over any run from lastTradeTime 0, the gate never engages and opportunities grows by exactly the number of trade signals; trades and lastTradeTime stay put |
| MainLoop.Version4RunFromStart | src_arbitrage-bot_Version4.ts:443-449 | a bot started at startMs ends any run with 0 trades, one opportunity per trade signal, and startTime startMs |
| MainLoop.ArbitrageStep | arbitrage-bot.ts:443-476 | findOpportunity, on the tick's price buffer, listing and quotes, is consulted iff the cooldown has passed; while cooling nothing changes; each returned opportunity adds exactly 1; trades and lastTradeTime never change |
| MainLoop.ArbitrageRunCountsOpportunities | arbitrage-bot.ts:451-473 | over any run from lastTradeTime 0, opportunities grows by exactly the number of opportunities found past the gate |
| MainLoop.ArbitrageRunFromStart | arbitrage-bot.ts:389-394 | a bot started at startMs ends any run with 0 trades, one opportunity per opportunity found past the gate, and startTime startMs |
| MainLoop.ArbitrageGateOpenAfterEpochCooldown | arbitrage-bot.ts:444-445 | with lastTradeTime still 0, the gate is open once the clock is past the cooldown |
| MainLoop.GatesCompared | arbitrage-bot.ts:443-448 | 10 s after a trade with a 60 s cooldown, both loops are gated; with no trade yet and the clock in the first minute after its epoch, only the `arbitrage-bot.ts` loop is gated |

## Left out

- WebSocket lifecycle, `setTimeout` and `sleep`: not modelled. This covers the 5 s reconnect delay, the 1 s and 5 s loop sleeps, the 35 s warm-up, `SIGINT` and `disconnect`. A reconnect is a flag, and the socket's `error` rejection is not modelled. Only the counter arithmetic is modelled.
- `JSON.parse` and `parseFloat`: message ingest takes an already-parsed positive price. Non-numeric `p` would push NaN into the buffer, and that is not modelled. A malformed message is swallowed in the source; the model simply has no event for it. Market responses arrive already parsed, with failed lists given as their defaults.
- IEEE-754 behaviour: not modelled; prices are exact reals. `CalculateMomentum` requires all buffered prices to be positive, so the reference price is never zero. The falsy coercion `prices[i] || 0.5` is modelled for a missing or zero price only, not for NaN. The one infinity that matters, a zero threshold in `calculateRealProbability`, is modelled as reaching the 0.85 cap.
- Foreign calls: `ClobClient`, `Wallet`, API-key derivation, `placeBet`, `cancelAllOrders`, `getOrderBook`, `getMidpoint`, `fetch` and `getMarkets`. Their results are inputs: a slug-to-response function, a listing option and a midpoint function.
- Console output: `printStatus`, `printStats`, banners and `toFixed`. Status printing is only a flag, and the timer behind it is modelled.
- Commented-out live-trading blocks: not live code, so no tick counts a trade or resets `lastTradeTime`.
- The tick's catch-and-back-off path: no modelled operation can throw.
- `search-markets.ts`: a console listing script with only a print-only filter.
- `Text.Lower`: lower-cases ASCII letters only, whereas `toLowerCase` is Unicode-aware. The matched words are ASCII.
- `Text.IntToString`: renders every integer in plain decimal. JavaScript switches to exponent notation from 1e21 on, far beyond any timestamp.
- The unused `maxOpenPositions` setting of `arbitrage-bot.ts`, and the hosts, keys, chain and signature settings: they configure foreign clients only.
- The price buffer each tick reads is an input of the loop models, not the result of feed events interleaved with ticks, because the feed runs concurrently with the loop. The loop models require its prices to be positive, and `FeedConnection.RunKeepsPricesPositive` shows this for every buffer the feed reaches.
- The clock is read several times per iteration in the source. `Analysis.AnalyzeFeed` uses one reading for the momentum window and the market lookup (round choice and time left). The Version4 tick then takes that analysis as an input together with a later reading for the cooldown and status timer. The `arbitrage-bot.ts` tick uses one reading for both the cooldown gate and the momentum window.

=== FILE: analysis.dfy ===
/** `ArbitrageStrategy.analyze` of the Version4 bot: momentum and the market
    quote become an edge and a trade decision. */
module Analysis {
  import opened Wrappers
  import opened BotConfig
  import opened Probability
  import opened PriceFeed
  import opened MarketCalculator
  import opened GammaMarkets

  datatype AnalysisResult = AnalysisResult(
    price: Option<real>,
    momentum: Option<real>,
    direction: Direction,
    realProbability: real,
    marketPrices: MarketPrices,
    edge: real,
    shouldTrade: bool)

  /** The quoted probability for a direction; NEUTRAL keeps the 0.5 default. */
  function MarketProbability(direction: Direction, mp: MarketPrices): real {
    match direction
    case Up => mp.upPrice
    case Down => mp.downPrice
    case Neutral => Prior
  }

  /** `analyze()` given the current price, the momentum and the quote. */
  function Analyze(price: Option<real>, momentum: Option<real>, mp: MarketPrices, cfg: Config): (a: AnalysisResult)
    ensures a.price == price && a.momentum == momentum && a.marketPrices == mp
    ensures a.shouldTrade <==> a.edge >= cfg.minEdgePercent && a.direction != Neutral && mp.found
    ensures momentum.None? ==>
              a.direction == Neutral && a.realProbability == Prior && a.edge == 0.0 && !a.shouldTrade
    ensures momentum.Some? ==>
              && Estimate(a.realProbability, a.direction)
                 == CalculateRealProbability(momentum.value, cfg.momentumThresholdPercent)
              && a.edge == (a.realProbability - MarketProbability(a.direction, mp)) * 100.0
  {
    match momentum
    case None =>
      AnalysisResult(price, None, Neutral, Prior, mp, 0.0, false)
    case Some(m) =>
      var e := CalculateRealProbability(m, cfg.momentumThresholdPercent);
      var marketProb := MarketProbability(e.direction, mp);
      var edge := (e.prob - marketProb) * 100.0;
      var shouldTrade := edge >= cfg.minEdgePercent && e.direction != Neutral && mp.found;
      AnalysisResult(price, momentum, e.direction, e.prob, mp, edge, shouldTrade)
  }

  /** The analysis one tick of the Version4 bot performs: the price buffer
      and the market of `asset` (looked up through `lookup`), both at the
      clock reading `nowMs`. */
  function AnalyzeFeed(ps: seq<PricePoint>, nowMs: int, asset: string, lookup: string -> Option<MarketResponse>,
                       cfg: Config): (a: AnalysisResult)
    requires PositivePrices(ps)
    ensures a.price.None? <==> |ps| == 0
    ensures a.marketPrices.found <==> GetCurrentMarket(asset, nowMs, lookup).Some?
    ensures a.marketPrices.found ==> a.marketPrices.upPrice != 0.0 && a.marketPrices.downPrice != 0.0
    ensures a.shouldTrade ==> |ps| >= 2 && a.marketPrices.found && a.direction != Neutral
  {
    Analyze(CurrentPrice(ps), CalculateMomentum(ps, nowMs, cfg.momentumWindowSeconds),
            FetchMarketPrices(asset, nowMs, lookup), cfg)
  }

  /** When no request for a market succeeds, the Version4 tick never trades:
      the lookup falls back to the not-found quote, which never trades. */
  lemma FailedLookupsNeverTrade(ps: seq<PricePoint>, nowMs: int, asset: string,
                                lookup: string -> Option<MarketResponse>, cfg: Config)
    requires PositivePrices(ps)
    requires forall slug :: lookup(slug).None?
    ensures GetCurrentMarket(asset, nowMs, lookup).None?
    ensures FetchMarketPrices(asset, nowMs, lookup) == GetMarketPrices(None, nowMs)
    ensures !AnalyzeFeed(ps, nowMs, asset, lookup, cfg).shouldTrade
  {
    var rounds := Get15MinTimestamps(nowMs);
    assert lookup(FormatSlug(asset, rounds.current)).None?;
    assert lookup(FormatSlug(asset, rounds.next)).None?;
    NotFoundNeverTrades(CurrentPrice(ps), CalculateMomentum(ps, nowMs, cfg.momentumWindowSeconds), nowMs, cfg);
  }

  /** A missing market never leads to a trade, whatever the edge. */
  lemma NotFoundNeverTrades(price: Option<real>, momentum: Option<real>, nowMs: int, cfg: Config)
    ensures !Analyze(price, momentum, GetMarketPrices(None, nowMs), cfg).shouldTrade
  {
  }

  /** A trade is proposed only for a directional call whose estimate beats
      the quoted probability of that outcome by at least the minimum edge. */
  lemma TradeMeansEdge(price: Option<real>, momentum: Option<real>, mp: MarketPrices, cfg: Config)
    requires Analyze(price, momentum, mp, cfg).shouldTrade
    ensures var a := Analyze(price, momentum, mp, cfg);
            && momentum.Some?
            && (a.direction == Up ==> a.realProbability - mp.upPrice >= cfg.minEdgePercent / 100.0)
            && (a.direction == Down ==> a.realProbability - mp.downPrice >= cfg.minEdgePercent / 100.0)
  {
  }

  /** With the shipped settings, a 0.30% momentum against an UP price of
      0.60 gives an 85% estimate, a 25-point edge and a trade. */
  lemma ShippedScenario(price: Option<real>, mp: MarketPrices)
    requires mp.found && mp.upPrice == 0.60
    ensures var a := Analyze(price, Some(0.30), mp, Shipped);
            a.direction == Up && a.realProbability == Cap && a.edge == 25.0 && a.shouldTrade
  {
    assert 0.30 / 0.15 == 2.0;
  }
}

=== FILE: bot_config.dfy ===
/** The strategy settings both bots read (`BotConfig`). Hosts, keys, chain
    and signature settings only configure foreign clients and are omitted. */
module BotConfig {

  datatype Config = Config(
    minEdgePercent: real,
    betSizeUsdc: real,
    momentumWindowSeconds: real,
    momentumThresholdPercent: real,
    cooldownSeconds: real)

  /** The values both bot files ship with. */
  const Shipped: Config := Config(5.0, 50.0, 30.0, 0.15, 60.0)
}

=== FILE: clob_markets.dfy ===
/** The market search of `arbitrage-bot.ts` (`findBtc15MinMarket`): the
    first listed market whose question looks like the 15-minute Bitcoin
    up/down market, with defaults for missing fields. The listing itself
    comes from a foreign client and is an input; `None` stands for a listing
    that failed. */
module ClobMarkets {
  import opened Wrappers
  import opened Text

  datatype Token = Token(tokenId: string, outcome: string)

  /** A listed market; absent fields are `None`. */
  datatype ListedMarket = ListedMarket(
    conditionId: string,
    question: Option<string>,
    tokens: Option<seq<Token>>,
    minimumTickSize: Option<string>,
    negRisk: Option<bool>)

  datatype BtcMarket = BtcMarket(
    conditionId: string,
    question: Option<string>,
    tokens: seq<Token>,
    tickSize: string,
    negRisk: bool)

  /** The tick size used when the listing gives none (or an empty one). */
  const DefaultTickSize: string := "0.01"

  /** The question filter on the lower-cased question text. */
  predicate QuestionMatches(question: string) {
    var q := Lower(question);
    Contains(q, "bitcoin") && Contains(q, "15") && (Contains(q, "up") || Contains(q, "down"))
  }

  /** A listed market the search accepts; a missing question reads as "". */
  predicate IsBtc15Min(m: ListedMarket) {
    QuestionMatches(m.question.GetOr(""))
  }

  /** The record built for an accepted market. */
  function ToBtcMarket(m: ListedMarket): (b: BtcMarket)
    ensures b.conditionId == m.conditionId && b.question == m.question
    ensures b.tokens == m.tokens.GetOr([])
    ensures b.tickSize != ""
    ensures m.minimumTickSize.None? || m.minimumTickSize == Some("") ==> b.tickSize == DefaultTickSize
    ensures m.minimumTickSize.Some? && m.minimumTickSize.value != "" ==> b.tickSize == m.minimumTickSize.value
    ensures m.negRisk.Some? ==> b.negRisk == m.negRisk.value
    ensures !m.negRisk.Some? ==> !b.negRisk
  {
    var tickSize := match m.minimumTickSize
      case Some(t) => if t == "" then DefaultTickSize else t
      case None => DefaultTickSize;
    BtcMarket(m.conditionId, m.question, m.tokens.GetOr([]), tickSize, m.negRisk.GetOr(false))
  }

  /** The search as a recursive reference definition: the first accepted
      market of `ms`, converted. */
  function FirstBtc15Min(ms: seq<ListedMarket>): Option<BtcMarket>
    decreases |ms|
  {
    if ms == [] then None
    else if IsBtc15Min(ms[0]) then Some(ToBtcMarket(ms[0]))
    else FirstBtc15Min(ms[1..])
  }

  /** The market search over a listing; a failed listing finds nothing. */
  function SearchListing(listing: Option<seq<ListedMarket>>): Option<BtcMarket> {
    if listing.None? then None else FirstBtc15Min(listing.value)
  }

  /** The reference search returns the first accepted market, and nothing
      exactly when no market is accepted. */
  lemma {:induction false} FirstBtc15MinIsFirstMatch(ms: seq<ListedMarket>)
    ensures FirstBtc15Min(ms).None? <==> forall i :: 0 <= i < |ms| ==> !IsBtc15Min(ms[i])
    ensures FirstBtc15Min(ms).Some? ==>
              exists i :: && 0 <= i < |ms|
                         && IsBtc15Min(ms[i])
                         && (forall j :: 0 <= j < i ==> !IsBtc15Min(ms[j]))
                         && FirstBtc15Min(ms).value == ToBtcMarket(ms[i])
    decreases |ms|
  {
    if ms != [] && !IsBtc15Min(ms[0]) {
      var tail := ms[1..];
      FirstBtc15MinIsFirstMatch(tail);
      if FirstBtc15Min(ms).Some? {
        var i :| && 0 <= i < |tail|
                 && IsBtc15Min(tail[i])
                 && (forall j :: 0 <= j < i ==> !IsBtc15Min(tail[j]))
                 && FirstBtc15Min(tail).value == ToBtcMarket(tail[i]);
        assert ms[i + 1] == tail[i];
        forall j | 0 <= j < i + 1
          ensures !IsBtc15Min(ms[j])
        {
          if j > 0 { assert ms[j] == tail[j - 1]; }
        }
      } else {
        forall i | 0 <= i < |ms| ensures !IsBtc15Min(ms[i]) {
          if i > 0 { assert ms[i] == tail[i - 1]; }
        }
      }
    }
  }

  /** `findBtc15MinMarket`: the first accepted market in listing order. */
  method FindBtc15MinMarket(listing: Option<seq<ListedMarket>>) returns (r: Option<BtcMarket>)
    ensures r == SearchListing(listing)
    ensures listing.None? ==> r.None?
    ensures listing.Some? && r.None? ==>
              forall i :: 0 <= i < |listing.value| ==> !IsBtc15Min(listing.value[i])
    ensures r.Some? ==>
              && listing.Some?
              && exists i :: && 0 <= i < |listing.value|
                             && IsBtc15Min(listing.value[i])
                             && (forall j :: 0 <= j < i ==> !IsBtc15Min(listing.value[j]))
                             && r.value == ToBtcMarket(listing.value[i])
  {
    if listing.None? {
      return None;
    }
    var markets := listing.value;
    var i := 0;
    while i < |markets|
      invariant 0 <= i <= |markets|
      invariant forall j :: 0 <= j < i ==> !IsBtc15Min(markets[j])
      invariant FirstBtc15Min(markets[i..]) == FirstBtc15Min(markets)
    {
      assert markets[i..][1..] == markets[i + 1..];
      if IsBtc15Min(markets[i]) {
        return Some(ToBtcMarket(markets[i]));
      }
      i := i + 1;
    }
    return None;
  }

  /** The `tokens.find` of `findOpportunity`: the first token whose
      lower-cased outcome contains `needle`. */
  function FindToken(tokens: seq<Token>, needle: string): (r: Option<Token>)
    ensures r.None? <==> forall i :: 0 <= i < |tokens| ==> !Contains(Lower(tokens[i].outcome), needle)
    ensures r.Some? ==>
              exists i :: && 0 <= i < |tokens|
                         && tokens[i] == r.value
                         && Contains(Lower(r.value.outcome), needle)
                         && forall j :: 0 <= j < i ==> !Contains(Lower(tokens[j].outcome), needle)
  {
    if tokens == [] then None
    else if Contains(Lower(tokens[0].outcome), needle) then
      Some(tokens[0])
    else
      var rest := FindToken(tokens[1..], needle);
      if rest.Some? then
        var i :| && 0 <= i < |tokens[1..]|
                 && tokens[1..][i] == rest.value
                 && Contains(Lower(rest.value.outcome), needle)
                 && forall j :: 0 <= j < i ==> !Contains(Lower(tokens[1..][j].outcome), needle);
        assert tokens[i + 1] == rest.value;
        rest
      else
        rest
  }
}

=== FILE: feed_connection.dfy ===
/** The connection side of `BinancePriceFeed`: the reconnect-attempt counter
    driven by `open` and `close` events, and the message events that feed the
    price buffer. Sockets and timers are not modelled; a scheduled reconnect
    is reported as a flag. */
module FeedConnection {
  import opened PriceFeed

  /** No reconnect is scheduled once this many attempts have been made. */
  const MaxReconnectAttempts: nat := 10

  datatype CloseOutcome = CloseOutcome(attempts: nat, scheduled: bool)

  /** The `close` handler: while below the maximum, count one more attempt
      and schedule a reconnect; at the maximum do nothing. */
  function OnClose(attempts: nat): (r: CloseOutcome)
    ensures r.scheduled <==> attempts < MaxReconnectAttempts
    ensures r.attempts == if r.scheduled then attempts + 1 else attempts
    ensures attempts <= MaxReconnectAttempts ==> r.attempts <= MaxReconnectAttempts
  {
    if attempts < MaxReconnectAttempts then CloseOutcome(attempts + 1, true)
    else CloseOutcome(attempts, false)
  }

  datatype FeedState = FeedState(prices: seq<PricePoint>, reconnectAttempts: nat)

  datatype FeedEvent =
    | Opened
    | Closed
    | Message(price: real, atMs: int)

  /** Message events carry an already-parsed positive price. */
  predicate ValidEvent(e: FeedEvent) {
    e.Message? ==> e.price > 0.0
  }

  predicate ValidEvents(es: seq<FeedEvent>) {
    forall i :: 0 <= i < |es| ==> ValidEvent(es[i])
  }

  /** One event delivered to the feed. */
  function Step(f: FeedState, e: FeedEvent): (g: FeedState)
    requires ValidEvent(e)
    ensures e.Opened? ==> g == FeedState(f.prices, 0)
    ensures e.Closed? ==> g.prices == f.prices && g.reconnectAttempts == OnClose(f.reconnectAttempts).attempts
    ensures e.Message? ==> g.reconnectAttempts == f.reconnectAttempts && g.prices == Ingest(f.prices, e.price, e.atMs)
  {
    match e
    case Opened => f.(reconnectAttempts := 0)
    case Closed => f.(reconnectAttempts := OnClose(f.reconnectAttempts).attempts)
    case Message(price, atMs) => f.(prices := Ingest(f.prices, price, atMs))
  }

  /** The feed after a sequence of events, oldest first. */
  function Run(f: FeedState, es: seq<FeedEvent>): FeedState
    requires ValidEvents(es)
    decreases |es|
  {
    if es == [] then f else Run(Step(f, es[0]), es[1..])
  }

  /** Every buffer the feed can reach from a buffer of positive prices holds
      only positive prices, as momentum needs. */
  lemma {:induction false} RunKeepsPricesPositive(f: FeedState, es: seq<FeedEvent>)
    requires ValidEvents(es)
    requires PositivePrices(f.prices)
    ensures PositivePrices(Run(f, es).prices)
    decreases |es|
  {
    if es != [] {
      assert ValidEvent(es[0]);
      if es[0].Message? {
        IngestKeepsPricesPositive(f.prices, es[0].price, es[0].atMs);
      }
      RunKeepsPricesPositive(Step(f, es[0]), es[1..]);
    }
  }

  /** Number of reconnects scheduled while running `es`. */
  function Reconnects(f: FeedState, es: seq<FeedEvent>): nat
    requires ValidEvents(es)
    decreases |es|
  {
    if es == [] then 0
    else
      (if es[0].Closed? && OnClose(f.reconnectAttempts).scheduled then 1 else 0)
      + Reconnects(Step(f, es[0]), es[1..])
  }

  /** The attempt counter never exceeds the maximum, whatever the events. */
  lemma {:induction false} AttemptsStayBounded(f: FeedState, es: seq<FeedEvent>)
    requires ValidEvents(es)
    requires f.reconnectAttempts <= MaxReconnectAttempts
    ensures Run(f, es).reconnectAttempts <= MaxReconnectAttempts
    decreases |es|
  {
    if es != [] {
      AttemptsStayBounded(Step(f, es[0]), es[1..]);
    }
  }

  /** Between two successful opens at most `MaxReconnectAttempts` reconnects
      are scheduled in all (fewer if some attempts were already used). */
  lemma {:induction false} ReconnectsBoundedWithoutOpen(f: FeedState, es: seq<FeedEvent>)
    requires ValidEvents(es)
    requires f.reconnectAttempts <= MaxReconnectAttempts
    requires forall i :: 0 <= i < |es| ==> !es[i].Opened?
    ensures Reconnects(f, es) + f.reconnectAttempts <= MaxReconnectAttempts
    ensures Reconnects(f, es) + f.reconnectAttempts == Run(f, es).reconnectAttempts
    decreases |es|
  {
    if es != [] {
      ReconnectsBoundedWithoutOpen(Step(f, es[0]), es[1..]);
    }
  }

  /** `n` consecutive close events. */
  function Closes(n: nat): (es: seq<FeedEvent>)
    ensures |es| == n
    ensures ValidEvents(es)
    ensures forall i :: 0 <= i < n ==> !es[i].Opened? && !es[i].Message?
  {
    seq(n, i => Closed)
  }

  /** From a fresh counter, `n` failed reconnects in a row use
      `min(n, MaxReconnectAttempts)` attempts and schedule as many reconnects;
      the buffer (and so the last known price) is left as it was. */
  lemma {:induction false} ConsecutiveCloses(f: FeedState, n: nat)
    requires f.reconnectAttempts <= MaxReconnectAttempts
    ensures ValidEvents(Closes(n))
    ensures Run(f, Closes(n)).reconnectAttempts
            == if f.reconnectAttempts + n <= MaxReconnectAttempts then f.reconnectAttempts + n else MaxReconnectAttempts
    ensures Run(f, Closes(n)).prices == f.prices
    decreases n
  {
    if n > 0 {
      assert Closes(n)[1..] == Closes(n - 1);
      ConsecutiveCloses(Step(f, Closed), n - 1);
    }
  }

  /** Connection events never touch the buffer, so the current price stays
      the last one ingested. */
  lemma {:induction false} ConnectionEventsKeepPrice(f: FeedState, es: seq<FeedEvent>)
    requires forall i :: 0 <= i < |es| ==> !es[i].Message?
    ensures ValidEvents(es)
    ensures Run(f, es).prices == f.prices
    ensures CurrentPrice(Run(f, es).prices) == CurrentPrice(f.prices)
    decreases |es|
  {
    if es != [] {
      ConnectionEventsKeepPrice(Step(f, es[0]), es[1..]);
    }
  }

  /** After ten failed reconnects the eleventh close schedules nothing. */
  lemma TenFailedReconnectsStop(ps: seq<PricePoint>)
    ensures Run(FeedState(ps, 0), Closes(10)).reconnectAttempts == MaxReconnectAttempts
    ensures !OnClose(Run(FeedState(ps, 0), Closes(10)).reconnectAttempts).scheduled
  {
    ConsecutiveCloses(FeedState(ps, 0), 10);
  }
}

=== FILE: gamma_markets.dfy ===
/** The Version4 bot's market lookup (`GammaApiClient`, `getMarketPrices`):
    turning a fetched market record into a `Market15m`, choosing between the
    current and the next round, and the not-found fallback. HTTP and JSON
    parsing are not modelled: a lookup is a function from slug to an
    already-parsed response, `None` when the request failed. */
module GammaMarkets {
  import opened Wrappers
  import opened MarketCalculator

  /** A market record as the Gamma API returns it, after the token-id and
      outcome-price lists have been parsed (a list that fails to parse is
      given here as its default: no token ids, prices `[0.5, 0.5]`). */
  datatype MarketResponse = MarketResponse(
    id: string,
    question: string,
    slug: string,
    conditionId: string,
    tokenIds: seq<string>,
    outcomePrices: seq<real>,
    active: bool,
    closed: bool)

  datatype Market15m = Market15m(
    id: string,
    question: string,
    slug: string,
    conditionId: string,
    upTokenId: string,
    downTokenId: string,
    upPrice: real,
    downPrice: real,
    endTimestamp: int,
    active: bool)

  /** The price used when an outcome price is missing or zero. */
  const NeutralPrice: real := 0.5

  /** `tokenIds[i] || ""`. */
  function TokenAt(ids: seq<string>, i: nat): string {
    if i < |ids| then ids[i] else ""
  }

  /** `prices[i] || 0.5`: a missing or zero price falls back to 0.5. */
  function PriceAt(ps: seq<real>, i: nat): (p: real)
    ensures p != 0.0
    ensures i < |ps| && ps[i] != 0.0 ==> p == ps[i]
    ensures !(i < |ps| && ps[i] != 0.0) ==> p == NeutralPrice
  {
    if i < |ps| && ps[i] != 0.0 then ps[i] else NeutralPrice
  }

  /** The field mapping of `getMarketBySlug` for the requested `slug`; a
      failed request gives `None`. */
  function MarketFromResponse(slug: string, response: Option<MarketResponse>): (r: Option<Market15m>)
    ensures r.Some? <==> response.Some?
    ensures r.Some? ==>
              && r.value.id == response.value.id && r.value.question == response.value.question
              && r.value.slug == response.value.slug && r.value.conditionId == response.value.conditionId
              && r.value.active == (response.value.active && !response.value.closed)
              && r.value.upPrice == PriceAt(response.value.outcomePrices, 0)
              && r.value.downPrice == PriceAt(response.value.outcomePrices, 1)
              && r.value.upTokenId == TokenAt(response.value.tokenIds, 0)
              && r.value.downTokenId == TokenAt(response.value.tokenIds, 1)
              && r.value.endTimestamp == SlugTimestamp(slug)
  {
    match response
    case None => None
    case Some(m) =>
      Some(Market15m(
        m.id, m.question, m.slug, m.conditionId,
        TokenAt(m.tokenIds, 0), TokenAt(m.tokenIds, 1),
        PriceAt(m.outcomePrices, 0), PriceAt(m.outcomePrices, 1),
        SlugTimestamp(slug),
        m.active && !m.closed))
  }

  /** `getMarketBySlug(formatSlug(asset, t))`. */
  function MarketForRound(asset: string, t: int, lookup: string -> Option<MarketResponse>): Option<Market15m> {
    MarketFromResponse(FormatSlug(asset, t), lookup(FormatSlug(asset, t)))
  }

  /** A market fetched by the slug of a ten-digit round start carries that
      round start as its `endTimestamp`. */
  lemma MarketTimestampFromSlug(asset: string, t: int, lookup: string -> Option<MarketResponse>)
    requires TenDigits(t)
    ensures MarketForRound(asset, t, lookup).Some? ==> MarketForRound(asset, t, lookup).value.endTimestamp == t
  {
    SlugRoundTrip(asset, t);
  }

  /** `getCurrentMarket`: an active current-round market is always the one
      chosen; anything else returned is the next round's lookup (which may be
      inactive), and nothing is returned only when the current round offers
      no active market and the next round's request fails. */
  function GetCurrentMarket(asset: string, nowMs: int, lookup: string -> Option<MarketResponse>): (r: Option<Market15m>)
    ensures var cur := MarketForRound(asset, Get15MinTimestamps(nowMs).current, lookup);
            cur.Some? && cur.value.active ==> r == cur
    ensures var cur := MarketForRound(asset, Get15MinTimestamps(nowMs).current, lookup);
            r != cur ==> r == MarketForRound(asset, Get15MinTimestamps(nowMs).next, lookup)
    ensures r.Some? ==> r.value.active || r == MarketForRound(asset, Get15MinTimestamps(nowMs).next, lookup)
    ensures var cur := MarketForRound(asset, Get15MinTimestamps(nowMs).current, lookup);
            r.None? <==> !(cur.Some? && cur.value.active)
                         && MarketForRound(asset, Get15MinTimestamps(nowMs).next, lookup).None?
  {
    var rounds := Get15MinTimestamps(nowMs);
    var market := MarketForRound(asset, rounds.current, lookup);
    if market.Some? && market.value.active then market
    else MarketForRound(asset, rounds.next, lookup)
  }

  /** While round starts have ten digits, an active market for the current
      round is always chosen, and any market chosen is the current round's
      (then active) or the next round's, as its timestamp shows. */
  lemma CurrentMarketRound(asset: string, nowMs: int, lookup: string -> Option<MarketResponse>)
    requires TenDigits(Get15MinTimestamps(nowMs).current) && TenDigits(Get15MinTimestamps(nowMs).next)
    ensures var cur := MarketForRound(asset, Get15MinTimestamps(nowMs).current, lookup);
            cur.Some? && cur.value.active ==>
              && GetCurrentMarket(asset, nowMs, lookup) == cur
              && cur.value.endTimestamp == Get15MinTimestamps(nowMs).current
    ensures GetCurrentMarket(asset, nowMs, lookup).Some? ==>
              || (GetCurrentMarket(asset, nowMs, lookup).value.endTimestamp == Get15MinTimestamps(nowMs).current
                  && GetCurrentMarket(asset, nowMs, lookup).value.active)
              || GetCurrentMarket(asset, nowMs, lookup).value.endTimestamp == Get15MinTimestamps(nowMs).next
  {
    MarketTimestampFromSlug(asset, Get15MinTimestamps(nowMs).current, lookup);
    MarketTimestampFromSlug(asset, Get15MinTimestamps(nowMs).next, lookup);
  }

  /** What the strategy sees of the market (`MarketPrices`); `timeLeft` is
      `None` where the source leaves the text empty. */
  datatype MarketPrices = MarketPrices(
    upPrice: real,
    downPrice: real,
    found: bool,
    question: string,
    timeLeft: Option<TimeLeft>,
    upTokenId: string,
    downTokenId: string,
    slug: string)

  /** The question text reported when no market is found. */
  const NotFoundQuestion: string := "Рынок не найден"

  /** `getMarketPrices` after the lookup: a missing market is reported as
      not found with neutral prices and no tokens, never as an error. */
  function GetMarketPrices(market: Option<Market15m>, nowMs: int): (r: MarketPrices)
    ensures r.found <==> market.Some?
    ensures !r.found ==>
              && r.upPrice == NeutralPrice && r.downPrice == NeutralPrice
              && r.upTokenId == "" && r.downTokenId == "" && r.slug == ""
              && r.question == NotFoundQuestion && r.timeLeft.None?
    ensures r.found ==>
              && r.upPrice == market.value.upPrice && r.downPrice == market.value.downPrice
              && r.upTokenId == market.value.upTokenId && r.downTokenId == market.value.downTokenId
              && r.question == market.value.question && r.slug == market.value.slug
              && r.timeLeft == Some(GetTimeLeft(market.value.endTimestamp, nowMs))
  {
    match market
    case None =>
      MarketPrices(NeutralPrice, NeutralPrice, false, NotFoundQuestion, None, "", "", "")
    case Some(m) =>
      MarketPrices(m.upPrice, m.downPrice, true, m.question,
                   Some(GetTimeLeft(m.endTimestamp, nowMs)), m.upTokenId, m.downTokenId, m.slug)
  }

  /** The whole quote path of the Version4 bot, one clock reading throughout. */
  function FetchMarketPrices(asset: string, nowMs: int, lookup: string -> Option<MarketResponse>): (r: MarketPrices)
    ensures r.found ==> r.upPrice != 0.0 && r.downPrice != 0.0
  {
    GetMarketPrices(GetCurrentMarket(asset, nowMs, lookup), nowMs)
  }

  /** When the current round's market is active, the reported time left is
      between one second and fifteen minutes. */
  lemma ActiveCurrentRoundTimeLeft(asset: string, nowMs: int, lookup: string -> Option<MarketResponse>)
    requires var rounds := Get15MinTimestamps(nowMs);
             TenDigits(rounds.current) && TenDigits(rounds.next)
    requires var m := GetCurrentMarket(asset, nowMs, lookup);
             m.Some? && m.value.active && m.value.endTimestamp == Get15MinTimestamps(nowMs).current
    ensures var q := FetchMarketPrices(asset, nowMs, lookup);
            && q.found
            && q.timeLeft.Some? && q.timeLeft.value.Remaining?
            && 1 <= q.timeLeft.value.minutes * 60 + q.timeLeft.value.seconds <= RoundSeconds
  {
  }
}

=== FILE: main_loop.dfy ===
/** One iteration of `ArbitrageBot.mainLoop` in each bot, as a pure state
    transition on the loop's counters. The live-trading blocks are commented
    out in both files, so no tick ever counts a trade or moves
    `lastTradeTime`; sleeping and console output are not modelled. */
module MainLoop {
  import opened Wrappers
  import opened BotConfig
  import opened Analysis
  import opened ClobMarkets
  import opened Opportunity
  import opened PriceFeed

  datatype Stats = Stats(trades: nat, opportunities: nat, startTime: int)

  /** Less than the cooldown has passed since the last trade. */
  predicate CoolingDown(lastTradeTime: int, nowMs: int, cooldownSeconds: real) {
    ((nowMs - lastTradeTime) as real) / 1000.0 < cooldownSeconds
  }

  // ---------------------------------------------------------------- Version4

  /** How often the Version4 loop prints a status snapshot. */
  const StatusIntervalMs: int := 5000

  datatype Version4Bot = Version4Bot(lastTradeTime: int, lastDetailedLog: int, stats: Stats)

  function InitialVersion4(startMs: int): Version4Bot {
    Version4Bot(0, 0, Stats(0, 0, startMs))
  }

  datatype Version4Tick = Version4Tick(bot: Version4Bot, statusPrinted: bool, skipped: bool)

  /** One Version4 iteration: the analysis is done first (so status can be
      printed), then the cooldown gate, which applies only once a trade has
      happened, then the opportunity count. */
  function Version4Step(b: Version4Bot, a: AnalysisResult, nowMs: int, cfg: Config): (t: Version4Tick)
    ensures t.statusPrinted <==> nowMs - b.lastDetailedLog >= StatusIntervalMs
    ensures t.bot.lastDetailedLog == if t.statusPrinted then nowMs else b.lastDetailedLog
    ensures t.skipped <==> b.lastTradeTime > 0 && CoolingDown(b.lastTradeTime, nowMs, cfg.cooldownSeconds)
    ensures t.bot.stats.opportunities == b.stats.opportunities + if !t.skipped && a.shouldTrade then 1 else 0
    ensures t.bot.stats.trades == b.stats.trades && t.bot.stats.startTime == b.stats.startTime
    ensures t.bot.lastTradeTime == b.lastTradeTime
  {
    var printed := nowMs - b.lastDetailedLog >= StatusIntervalMs;
    var logged := if printed then b.(lastDetailedLog := nowMs) else b;
    if CoolingDown(logged.lastTradeTime, nowMs, cfg.cooldownSeconds) && logged.lastTradeTime > 0 then
      Version4Tick(logged, printed, true)
    else if a.shouldTrade then
      Version4Tick(logged.(stats := logged.stats.(opportunities := logged.stats.opportunities + 1)), printed, false)
    else
      Version4Tick(logged, printed, false)
  }

  /** Ticks of a Version4 run: the analysis and the clock reading after it. */
  datatype Version4Input = Version4Input(analysis: AnalysisResult, nowMs: int)

  function Version4Run(b: Version4Bot, ins: seq<Version4Input>, cfg: Config): Version4Bot
    decreases |ins|
  {
    if ins == [] then b else Version4Run(Version4Step(b, ins[0].analysis, ins[0].nowMs, cfg).bot, ins[1..], cfg)
  }

  /** Number of ticks whose analysis says trade. */
  function TradeSignals(ins: seq<Version4Input>): nat
    decreases |ins|
  {
    if ins == [] then 0 else (if ins[0].analysis.shouldTrade then 1 else 0) + TradeSignals(ins[1..])
  }

  /** Since no trade is ever placed, `lastTradeTime` stays 0, the cooldown
      never engages, and every trade signal is counted as an opportunity. */
  lemma {:induction false} Version4RunCountsEverySignal(b: Version4Bot, ins: seq<Version4Input>, cfg: Config)
    requires b.lastTradeTime == 0
    ensures var e := Version4Run(b, ins, cfg);
            && e.lastTradeTime == 0
            && e.stats.trades == b.stats.trades
            && e.stats.opportunities == b.stats.opportunities + TradeSignals(ins)
    decreases |ins|
  {
    if ins != [] {
      var t := Version4Step(b, ins[0].analysis, ins[0].nowMs, cfg);
      assert !t.skipped;
      Version4RunCountsEverySignal(t.bot, ins[1..], cfg);
    }
  }

  /** A Version4 bot started at `startMs` ends any run with no trades and
      one opportunity per trade signal, its start time unchanged. */
  lemma Version4RunFromStart(startMs: int, ins: seq<Version4Input>, cfg: Config)
    ensures Version4Run(InitialVersion4(startMs), ins, cfg).stats == Stats(0, TradeSignals(ins), startMs)
  {
    Version4RunCountsEverySignal(InitialVersion4(startMs), ins, cfg);
    Version4RunKeepsStart(InitialVersion4(startMs), ins, cfg);
  }

  /** A run never changes the recorded start time. */
  lemma {:induction false} Version4RunKeepsStart(b: Version4Bot, ins: seq<Version4Input>, cfg: Config)
    ensures Version4Run(b, ins, cfg).stats.startTime == b.stats.startTime
    decreases |ins|
  {
    if ins != [] {
      Version4RunKeepsStart(Version4Step(b, ins[0].analysis, ins[0].nowMs, cfg).bot, ins[1..], cfg);
    }
  }

  // ------------------------------------------------------ arbitrage-bot.ts

  datatype ArbitrageBot = ArbitrageBot(lastTradeTime: int, stats: Stats)

  function InitialArbitrageBot(startMs: int): ArbitrageBot {
    ArbitrageBot(0, Stats(0, 0, startMs))
  }

  datatype ArbitrageTick = ArbitrageTick(bot: ArbitrageBot, evaluated: bool, opportunity: Option<ArbitrageOpportunity>)

  /** One `arbitrage-bot.ts` iteration at the clock reading `nowMs`, with
      the feed's price buffer, the market listing and the midpoint quotes of
      that moment: the cooldown gate comes first and, while cooling,
      `findOpportunity` is not consulted at all; a returned opportunity is
      counted. */
  function ArbitrageStep(b: ArbitrageBot, nowMs: int, cfg: Config, ps: seq<PricePoint>,
                         listing: Option<seq<ListedMarket>>, midpoint: string -> Option<real>): (t: ArbitrageTick)
    requires PositivePrices(ps)
    ensures t.evaluated <==> !CoolingDown(b.lastTradeTime, nowMs, cfg.cooldownSeconds)
    ensures !t.evaluated ==> t.bot == b && t.opportunity.None?
    ensures t.evaluated ==> t.opportunity == FindOpportunityFeed(ps, nowMs, cfg, listing, midpoint)
    ensures t.bot.stats.opportunities == b.stats.opportunities + if t.opportunity.Some? then 1 else 0
    ensures t.bot.stats.trades == b.stats.trades && t.bot.stats.startTime == b.stats.startTime
    ensures t.bot.lastTradeTime == b.lastTradeTime
  {
    if CoolingDown(b.lastTradeTime, nowMs, cfg.cooldownSeconds) then
      ArbitrageTick(b, false, None)
    else
      var o := FindOpportunityFeed(ps, nowMs, cfg, listing, midpoint);
      if o.Some? then
        ArbitrageTick(b.(stats := b.stats.(opportunities := b.stats.opportunities + 1)), true, o)
      else
        ArbitrageTick(b, true, o)
  }

  /** Ticks of an `arbitrage-bot.ts` run: the clock reading and what
      `findOpportunity` would read at it (the price buffer, the listing and
      the midpoint quotes). */
  datatype ArbitrageInput = ArbitrageInput(nowMs: int, prices: seq<PricePoint>, listing: Option<seq<ListedMarket>>,
                                           midpoint: string -> Option<real>)

  /** Every tick's buffer holds positive prices, as every buffer the feed
      can reach does (`FeedConnection.RunKeepsPricesPositive`). */
  predicate PositiveInputs(ins: seq<ArbitrageInput>) {
    forall i :: 0 <= i < |ins| ==> PositivePrices(ins[i].prices)
  }

  function ArbitrageRun(b: ArbitrageBot, ins: seq<ArbitrageInput>, cfg: Config): ArbitrageBot
    requires PositiveInputs(ins)
    decreases |ins|
  {
    if ins == [] then b
    else
      var i := ins[0];
      ArbitrageRun(ArbitrageStep(b, i.nowMs, cfg, i.prices, i.listing, i.midpoint).bot, ins[1..], cfg)
  }

  /** Number of ticks past the cooldown gate (with `lastTradeTime` 0) whose
      `findOpportunity` returns an opportunity. */
  function FoundOpportunities(ins: seq<ArbitrageInput>, cfg: Config): nat
    requires PositiveInputs(ins)
    decreases |ins|
  {
    if ins == [] then 0
    else
      var i := ins[0];
      (if !CoolingDown(0, i.nowMs, cfg.cooldownSeconds) && FindOpportunityFeed(i.prices, i.nowMs, cfg, i.listing, i.midpoint).Some?
       then 1 else 0)
      + FoundOpportunities(ins[1..], cfg)
  }

  /** Since no trade is ever placed, `lastTradeTime` stays 0 and every
      opportunity found past the gate is counted exactly once. */
  lemma {:induction false} ArbitrageRunCountsOpportunities(b: ArbitrageBot, ins: seq<ArbitrageInput>, cfg: Config)
    requires b.lastTradeTime == 0
    requires PositiveInputs(ins)
    ensures var e := ArbitrageRun(b, ins, cfg);
            && e.lastTradeTime == 0
            && e.stats.trades == b.stats.trades
            && e.stats.opportunities == b.stats.opportunities + FoundOpportunities(ins, cfg)
    decreases |ins|
  {
    if ins != [] {
      var i := ins[0];
      var t := ArbitrageStep(b, i.nowMs, cfg, i.prices, i.listing, i.midpoint);
      ArbitrageRunCountsOpportunities(t.bot, ins[1..], cfg);
    }
  }

  /** An `arbitrage-bot.ts` bot started at `startMs` ends any run with no
      trades and one opportunity per opportunity found past the gate. */
  lemma ArbitrageRunFromStart(startMs: int, ins: seq<ArbitrageInput>, cfg: Config)
    requires PositiveInputs(ins)
    ensures var e := ArbitrageRun(InitialArbitrageBot(startMs), ins, cfg);
            && e.stats.trades == 0
            && e.stats.opportunities == FoundOpportunities(ins, cfg)
            && e.stats.startTime == startMs
  {
    ArbitrageRunCountsOpportunities(InitialArbitrageBot(startMs), ins, cfg);
    ArbitrageRunKeepsStart(InitialArbitrageBot(startMs), ins, cfg);
  }

  /** A run never changes the recorded start time. */
  lemma {:induction false} ArbitrageRunKeepsStart(b: ArbitrageBot, ins: seq<ArbitrageInput>, cfg: Config)
    requires PositiveInputs(ins)
    ensures ArbitrageRun(b, ins, cfg).stats.startTime == b.stats.startTime
    decreases |ins|
  {
    if ins != [] {
      var i := ins[0];
      ArbitrageRunKeepsStart(ArbitrageStep(b, i.nowMs, cfg, i.prices, i.listing, i.midpoint).bot, ins[1..], cfg);
    }
  }

  /** With `lastTradeTime` still 0 the gate closes only within the cooldown
      of the clock's epoch, so on any present-day clock every tick evaluates. */
  lemma ArbitrageGateOpenAfterEpochCooldown(b: ArbitrageBot, nowMs: int, cfg: Config)
    requires b.lastTradeTime == 0
    requires (nowMs as real) >= cfg.cooldownSeconds * 1000.0
    ensures !CoolingDown(b.lastTradeTime, nowMs, cfg.cooldownSeconds)
  {
  }

  /** The two loops gate differently. With a trade 10 s ago and a 60 s
      cooldown, the Version4 loop still analyses (and may print status) but
      counts nothing, and the `arbitrage-bot.ts` loop does not evaluate.
      With no trade yet and a clock inside the first cooldown after its
      epoch, the Version4 loop is not gated but the other one is. */
  lemma GatesCompared(v: Version4Bot, a: AnalysisResult, x: ArbitrageBot, cfg: Config, nowMs: int,
                      ps: seq<PricePoint>, listing: Option<seq<ListedMarket>>, midpoint: string -> Option<real>)
    requires cfg.cooldownSeconds == 60.0
    requires PositivePrices(ps)
    requires x.lastTradeTime == v.lastTradeTime
    ensures v.lastTradeTime > 0 && nowMs == v.lastTradeTime + 10000 ==>
              && Version4Step(v, a, nowMs, cfg).skipped
              && Version4Step(v, a, nowMs, cfg).bot.stats == v.stats
              && !ArbitrageStep(x, nowMs, cfg, ps, listing, midpoint).evaluated
    ensures v.lastTradeTime == 0 && 0 <= nowMs < 60000 ==>
              && !Version4Step(v, a, nowMs, cfg).skipped
              && !ArbitrageStep(x, nowMs, cfg, ps, listing, midpoint).evaluated
  {
  }
}

=== FILE: market_calculator.dfy ===
/** `MarketCalculator` of the Version4 bot: 15-minute round alignment, the
    round's slug, the remaining time of a round, and reading a round's start
    back out of a slug. The clock is the parameter `nowMs`. */
module MarketCalculator {
  import opened Text

  /** Rounds last 15 minutes. */
  const RoundSeconds: int := 900

  /** `Math.floor(Date.now() / 1000)`. */
  function EpochSeconds(nowMs: int): int {
    nowMs / 1000
  }

  /** `s % 3600` in JavaScript: the remainder takes the sign of the dividend. */
  function HourRemainder(s: int): (r: int)
    ensures -3600 < r < 3600
    ensures (s - r) % 3600 == 0
    ensures s >= 0 ==> r == s % 3600
    ensures s < 0 ==> r <= 0
  {
    if s >= 0 then s % 3600
    else
      var r := -((-s) % 3600);
      assert s - r == -((-s) / 3600) * 3600;
      r
  }

  datatype RoundStarts = RoundStarts(current: int, next: int)

  /** `get15MinTimestamps`: the start of the round containing now and the
      start of the following one. */
  function Get15MinTimestamps(nowMs: int): (r: RoundStarts)
    ensures r.current % RoundSeconds == 0
    ensures r.current <= EpochSeconds(nowMs) < r.current + RoundSeconds
    ensures r.next == r.current + RoundSeconds
  {
    var now := EpochSeconds(nowMs);
    var intoHour := HourRemainder(now);
    var minutes := intoHour / 60;
    var currentSlot := (minutes / 15) * 15;
    var hourStart := now - intoHour;
    var current := hourStart + currentSlot * 60;
    SlotWithinHour(intoHour);
    AlignedSum(hourStart, minutes / 15);
    RoundStarts(current, current + 15 * 60)
  }

  /** A whole hour plus a whole number of quarters is a round boundary. */
  lemma AlignedSum(hourStart: int, q: int)
    requires hourStart % 3600 == 0
    ensures (hourStart + q * 15 * 60) % RoundSeconds == 0
  {
  }

  /** The slot arithmetic on the seconds into the hour brackets them by a
      900-second window. */
  lemma SlotWithinHour(intoHour: int)
    ensures var q := (intoHour / 60) / 15;
            q * 900 <= intoHour < q * 900 + 900
  {
  }

  /** The round start is the only multiple of the round length in the
      900 seconds up to now: the largest one not after now. */
  lemma RoundStartUnique(nowMs: int, c: int)
    requires c % RoundSeconds == 0
    requires c <= EpochSeconds(nowMs) < c + RoundSeconds
    ensures Get15MinTimestamps(nowMs).current == c
  {
  }

  /** Exactly on a round boundary, the round that has just started is current. */
  lemma BoundaryBelongsToNewRound(nowMs: int)
    requires EpochSeconds(nowMs) % RoundSeconds == 0
    ensures Get15MinTimestamps(nowMs).current == EpochSeconds(nowMs)
    ensures Get15MinTimestamps(nowMs).next == EpochSeconds(nowMs) + RoundSeconds
  {
    RoundStartUnique(nowMs, EpochSeconds(nowMs));
  }

  /** At minute 37 of an hour the current round began at minute 30 and the
      next begins at minute 45. */
  lemma MinuteThirtySevenExample(hourStart: int, secondsIntoMinute: int, millis: int)
    requires hourStart % 3600 == 0
    requires 0 <= secondsIntoMinute < 60 && 0 <= millis < 1000
    ensures Get15MinTimestamps((hourStart + 37 * 60 + secondsIntoMinute) * 1000 + millis)
            == RoundStarts(hourStart + 30 * 60, hourStart + 45 * 60)
  {
    var nowMs := (hourStart + 37 * 60 + secondsIntoMinute) * 1000 + millis;
    assert EpochSeconds(nowMs) == hourStart + 37 * 60 + secondsIntoMinute;
    RoundStartUnique(nowMs, hourStart + 1800);
  }

  datatype TimeLeft = Expired | Remaining(minutes: int, seconds: int)

  /** `getTimeLeft(start)`: the time until the round that began at `start`
      ends, split into whole minutes and seconds, or expired. */
  function GetTimeLeft(roundStart: int, nowMs: int): (r: TimeLeft)
    ensures r.Expired? <==> roundStart + RoundSeconds - EpochSeconds(nowMs) <= 0
    ensures r.Remaining? ==>
              && 0 <= r.seconds < 60
              && 0 <= r.minutes
              && r.minutes * 60 + r.seconds == roundStart + RoundSeconds - EpochSeconds(nowMs)
  {
    var secondsLeft := roundStart + 15 * 60 - EpochSeconds(nowMs);
    if secondsLeft <= 0 then Expired
    else Remaining(secondsLeft / 60, secondsLeft % 60)
  }

  /** The current round is never reported expired and has at most 15 minutes left. */
  lemma CurrentRoundTimeLeft(nowMs: int)
    ensures var r := GetTimeLeft(Get15MinTimestamps(nowMs).current, nowMs);
            && r.Remaining?
            && 1 <= r.minutes * 60 + r.seconds <= RoundSeconds
            && r.minutes <= 15
  {
  }

  /** The fixed middle part of every 15-minute up/down slug. */
  const SlugInfix: string := "-updown-15m-"

  /** `formatSlug(asset, timestamp)`: lower-cased asset, infix, decimal timestamp. */
  function FormatSlug(asset: string, timestamp: int): (slug: string)
    ensures |slug| == |asset| + |SlugInfix| + |IntToString(timestamp)|
    ensures slug[..|asset|] == Lower(asset)
    ensures forall i :: 0 <= i < |asset| ==> !IsUpper(slug[i])
    ensures slug[|asset|..|asset| + |SlugInfix|] == SlugInfix
  {
    Lower(asset) + SlugInfix + IntToString(timestamp)
  }

  /** Slug timestamps have ten digits. */
  const TimestampDigits: nat := 10

  /** The ten-digit range of epoch seconds (September 2001 to November 2286). */
  predicate TenDigits(t: int) {
    1000000000 <= t < 10000000000
  }

  lemma Pow10NineTen()
    ensures Pow10(9) == 1000000000 && Pow10(10) == 10000000000
  {
  }

  /** The `/(\d{10})$/` match of `getMarketBySlug`: the value of the last ten
      characters when they are all digits, otherwise 0. */
  function SlugTimestamp(slug: string): (t: nat)
    ensures t < 10000000000
    ensures t != 0 ==> |slug| >= TimestampDigits && AllDigits(slug[|slug| - TimestampDigits..])
  {
    if |slug| >= TimestampDigits && AllDigits(slug[|slug| - TimestampDigits..]) then
      var digits := slug[|slug| - TimestampDigits..];
      ParseBound(digits);
      Pow10NineTen();
      ParseDigits(digits)
    else 0
  }

  /** A string of k digits parses to a value below 10^k. */
  lemma {:induction false} ParseBound(s: string)
    requires AllDigits(s)
    ensures ParseDigits(s) < Pow10(|s|)
    decreases |s|
  {
    if s != [] {
      ParseBound(s[..|s| - 1]);
    }
  }

  /** Round trip: a ten-digit timestamp formatted into a slug is read back unchanged. */
  lemma SlugRoundTrip(asset: string, t: int)
    requires TenDigits(t)
    ensures SlugTimestamp(FormatSlug(asset, t)) == t
  {
    Pow10NineTen();
    var slug := FormatSlug(asset, t);
    var digits := NatToString(t);
    NatToStringLength(t, 9);
    assert slug[|slug| - TimestampDigits..] == digits;
    ParseNatToString(t);
  }

  /** A timestamp of fewer than ten digits leaves a non-digit among the
      last ten characters, so nothing is read back. */
  lemma ShortTimestampReadsZero(asset: string, t: int)
    requires 0 <= t < 1000000000
    ensures SlugTimestamp(FormatSlug(asset, t)) == 0
  {
    Pow10NineTen();
    var slug := FormatSlug(asset, t);
    var digits := NatToString(t);
    NatToStringShort(t, 9);
    var dash := |slug| - |digits| - 1;
    assert slug[dash] == '-';
    assert slug[|slug| - TimestampDigits..][dash - (|slug| - TimestampDigits)] == slug[dash];
  }
}

=== FILE: opportunity.dfy ===
/** `ArbitrageStrategy.findOpportunity` of `arbitrage-bot.ts`: a chain of
    early "no opportunity" exits, then an edge test and the order proposal.
    The midpoint quote comes from a foreign client; it is the function
    `midpoint`, whose `None` (a failed call or an empty answer) means 0.5. */
module Opportunity {
  import opened Wrappers
  import opened Text
  import opened BotConfig
  import opened Probability
  import opened ClobMarkets
  import opened PriceFeed

  datatype ArbitrageOpportunity = ArbitrageOpportunity(
    direction: Direction,
    tokenId: string,
    realProbability: real,
    marketProbability: real,
    edge: real,
    recommendedPrice: real,
    size: real,
    tickSize: string,
    negRisk: bool)

  /** Added to the quoted probability to cross the spread minimally. */
  const PriceBump: real := 0.01
  /** The highest price ever recommended. */
  const MaxPrice: real := 0.99

  /** `getMarketPrice(tokenId)`: the midpoint, or 0.5 when unavailable. A
      quoted midpoint is used as it is, even 0 (the fallback applies to the
      missing quote, not to a zero price). */
  function MarketPrice(midpoint: string -> Option<real>, tokenId: string): (p: real)
    ensures midpoint(tokenId).Some? ==> p == midpoint(tokenId).value
    ensures midpoint(tokenId).None? ==> p == 0.5
  {
    midpoint(tokenId).GetOr(0.5)
  }

  /** The token for a direction: outcome text containing "up" or "down". */
  function TargetToken(market: BtcMarket, direction: Direction): Option<Token> {
    FindToken(market.tokens, Lower(DirectionName(direction)))
  }

  /** `findOpportunity()` given the momentum, the market search result and
      the midpoint quotes. */
  function FindOpportunity(momentum: Option<real>, cfg: Config, market: Option<BtcMarket>,
                           midpoint: string -> Option<real>): (r: Option<ArbitrageOpportunity>)
    ensures momentum.None? ==> r.None?
    ensures momentum.Some? && CalculateRealProbability(momentum.value, cfg.momentumThresholdPercent).direction == Neutral ==> r.None?
    ensures market.None? ==> r.None?
    ensures market.Some? && momentum.Some? &&
            TargetToken(market.value, CalculateRealProbability(momentum.value, cfg.momentumThresholdPercent).direction).None?
            ==> r.None?
    ensures r.Some? ==>
              var o := r.value;
              var e := CalculateRealProbability(momentum.value, cfg.momentumThresholdPercent);
              var t := TargetToken(market.value, e.direction);
              && t.Some?
              && o.direction == e.direction && o.direction != Neutral
              && o.tokenId == t.value.tokenId
              && o.realProbability == e.prob
              && o.marketProbability == MarketPrice(midpoint, t.value.tokenId)
              && o.edge == (o.realProbability - o.marketProbability) * 100.0
              && o.edge >= cfg.minEdgePercent
              && o.recommendedPrice == Min(o.marketProbability + PriceBump, MaxPrice)
              && o.size == cfg.betSizeUsdc
              && o.tickSize == market.value.tickSize && o.negRisk == market.value.negRisk
  {
    if momentum.None? then None
    else
      var e := CalculateRealProbability(momentum.value, cfg.momentumThresholdPercent);
      if e.direction == Neutral then None
      else if market.None? then None
      else
        var target := TargetToken(market.value, e.direction);
        if target.None? then None
        else
          var marketProb := MarketPrice(midpoint, target.value.tokenId);
          var edge := (e.prob - marketProb) * 100.0;
          if edge >= cfg.minEdgePercent then
            Some(ArbitrageOpportunity(
              e.direction, target.value.tokenId, e.prob, marketProb, edge,
              Min(marketProb + PriceBump, MaxPrice), cfg.betSizeUsdc,
              market.value.tickSize, market.value.negRisk))
          else None
  }

  /** The whole of `findOpportunity()` at one clock reading: momentum from
      the price buffer over the configured window, and the market from the
      listing search. */
  function FindOpportunityFeed(ps: seq<PricePoint>, nowMs: int, cfg: Config, listing: Option<seq<ListedMarket>>,
                               midpoint: string -> Option<real>): (r: Option<ArbitrageOpportunity>)
    requires PositivePrices(ps)
    ensures |ps| < 2 ==> r.None?
    ensures (forall i :: 0 <= i < |ps| ==> !AtOrBefore(ps[i], Cutoff(nowMs, cfg.momentumWindowSeconds))) ==> r.None?
    ensures listing.None? ==> r.None?
    ensures listing.Some? && (forall k :: 0 <= k < |listing.value| ==> !IsBtc15Min(listing.value[k])) ==> r.None?
    ensures r.Some? ==>
              exists i :: && IsReference(ps, i, Cutoff(nowMs, cfg.momentumWindowSeconds))
                         && var e := CalculateRealProbability(PercentChange(ps[i].price, ps[|ps| - 1].price),
                                                              cfg.momentumThresholdPercent);
                            r.value.direction == e.direction && r.value.realProbability == e.prob
    ensures r.Some? ==>
              && listing.Some?
              && exists k :: && 0 <= k < |listing.value|
                             && IsBtc15Min(listing.value[k])
                             && (forall j :: 0 <= j < k ==> !IsBtc15Min(listing.value[j]))
                             && r.value.tickSize == ToBtcMarket(listing.value[k]).tickSize
                             && r.value.negRisk == ToBtcMarket(listing.value[k]).negRisk
  {
    var momentum := CalculateMomentum(ps, nowMs, cfg.momentumWindowSeconds);
    var market := SearchListing(listing);
    if listing.Some? then
      FirstBtc15MinIsFirstMatch(listing.value);
      FindOpportunity(momentum, cfg, market, midpoint)
    else
      FindOpportunity(momentum, cfg, market, midpoint)
  }

  /** Past the early exits, an opportunity is returned exactly when the edge
      reaches the minimum. */
  lemma OpportunityIffEdge(m: real, cfg: Config, market: BtcMarket, midpoint: string -> Option<real>)
    requires CalculateRealProbability(m, cfg.momentumThresholdPercent).direction != Neutral
    requires TargetToken(market, CalculateRealProbability(m, cfg.momentumThresholdPercent).direction).Some?
    ensures var e := CalculateRealProbability(m, cfg.momentumThresholdPercent);
            var t := TargetToken(market, e.direction).value;
            FindOpportunity(Some(m), cfg, Some(market), midpoint).Some?
            <==> (e.prob - MarketPrice(midpoint, t.tokenId)) * 100.0 >= cfg.minEdgePercent
  {
  }

  /** The recommended price never exceeds 0.99 and is never below the quoted
      probability while that is at most 0.99. */
  lemma RecommendedPriceBounds(momentum: Option<real>, cfg: Config, market: Option<BtcMarket>,
                               midpoint: string -> Option<real>)
    requires FindOpportunity(momentum, cfg, market, midpoint).Some?
    ensures var o := FindOpportunity(momentum, cfg, market, midpoint).value;
            && o.recommendedPrice <= MaxPrice
            && (o.marketProbability <= MaxPrice ==> o.marketProbability <= o.recommendedPrice)
            && (o.direction == Up || o.direction == Down)
  {
  }

  /** The token chosen for UP has "up" in its outcome, for DOWN "down". */
  lemma TargetTokenMatchesDirection(market: BtcMarket, d: Direction)
    requires TargetToken(market, d).Some?
    ensures d == Up ==> Contains(Lower(TargetToken(market, d).value.outcome), "up")
    ensures d == Down ==> Contains(Lower(TargetToken(market, d).value.outcome), "down")
  {
    assert Lower("UP") == "up";
    assert Lower("DOWN") == "down";
  }

  /** With the shipped settings, a 0.30% momentum against an "Up" token whose
      midpoint is 0.60 gives an UP proposal at price 0.61 with a 25-point edge. */
  lemma ShippedScenario(conditionId: string, upId: string, midpoint: string -> Option<real>)
    requires midpoint(upId) == Some(0.60)
    ensures var market := BtcMarket(conditionId, Some("Bitcoin Up or Down - 15 minute"),
                                    [Token(upId, "Up")], DefaultTickSize, false);
            var o := FindOpportunity(Some(0.30), Shipped, Some(market), midpoint);
            && o.Some? && o.value.direction == Up && o.value.tokenId == upId
            && o.value.edge == 25.0 && o.value.recommendedPrice == 0.61 && o.value.size == 50.0
  {
    assert 0.30 / 0.15 == 2.0;
    assert Lower("UP") == "up";
    assert Lower("Up") == "up";
    assert OccursAt("up", "up", 0);
  }
}

=== FILE: price_feed.dfy ===
/** The trade-price buffer of `BinancePriceFeed`: ingest-and-prune, the latest
    price, and momentum over a look-back window. Both bot variants carry the
    same code; the clock (`Date.now()`) is the parameter `nowMs`. */
module PriceFeed {
  import opened Wrappers

  datatype PricePoint = PricePoint(timestamp: int, price: real)

  /** Points older than five minutes are dropped on every ingest. */
  const RetentionMs: int := 300000

  /** Every price in the buffer is positive (prices arrive already parsed). */
  predicate PositivePrices(ps: seq<PricePoint>) {
    forall i :: 0 <= i < |ps| ==> ps[i].price > 0.0
  }

  /** The buffer is ascending by timestamp. */
  predicate Sorted(ps: seq<PricePoint>) {
    forall i, j :: 0 <= i < j < |ps| ==> ps[i].timestamp <= ps[j].timestamp
  }

  /** The prune step: keep the points strictly newer than `cutoff`, in order. */
  function Prune(ps: seq<PricePoint>, cutoff: int): (r: seq<PricePoint>)
    ensures |r| <= |ps|
  {
    if ps == [] then []
    else
      var last := ps[|ps| - 1];
      Prune(ps[..|ps| - 1], cutoff) + (if last.timestamp > cutoff then [last] else [])
  }

  /** A point survives the prune iff it was in the buffer and is newer than the cutoff. */
  lemma {:induction false} PruneMembers(ps: seq<PricePoint>, cutoff: int)
    ensures forall p :: p in Prune(ps, cutoff) <==> p in ps && p.timestamp > cutoff
    decreases |ps|
  {
    if ps != [] {
      var init := ps[..|ps| - 1];
      PruneMembers(init, cutoff);
      assert ps == init + [ps[|ps| - 1]];
    }
  }

  /** Pruning distributes over concatenation: survivors keep their relative order. */
  lemma {:induction false} PruneAppend(a: seq<PricePoint>, b: seq<PricePoint>, cutoff: int)
    ensures Prune(a + b, cutoff) == Prune(a, cutoff) + Prune(b, cutoff)
    decreases |b|
  {
    if b == [] {
      assert a + b == a;
    } else {
      var b' := b[..|b| - 1];
      assert (a + b)[..|a + b| - 1] == a + b';
      assert (a + b)[|a + b| - 1] == b[|b| - 1];
      PruneAppend(a, b', cutoff);
    }
  }

  /** Pruning a buffer whose points are all newer than the cutoff keeps it whole. */
  lemma {:induction false} PruneKeepsAll(ps: seq<PricePoint>, cutoff: int)
    requires forall i :: 0 <= i < |ps| ==> ps[i].timestamp > cutoff
    ensures Prune(ps, cutoff) == ps
    decreases |ps|
  {
    if ps != [] {
      PruneKeepsAll(ps[..|ps| - 1], cutoff);
    }
  }

  /** Pruning a buffer whose points are all at or before the cutoff empties it. */
  lemma {:induction false} PruneDropsAll(ps: seq<PricePoint>, cutoff: int)
    requires forall i :: 0 <= i < |ps| ==> ps[i].timestamp <= cutoff
    ensures Prune(ps, cutoff) == []
    decreases |ps|
  {
    if ps != [] {
      PruneDropsAll(ps[..|ps| - 1], cutoff);
    }
  }

  /** Index of the first point newer than `cutoff` (or `|ps|` if none). */
  function FirstNewer(ps: seq<PricePoint>, cutoff: int): (k: nat)
    ensures k <= |ps|
    ensures forall i :: 0 <= i < k ==> ps[i].timestamp <= cutoff
    ensures k < |ps| ==> ps[k].timestamp > cutoff
  {
    if ps == [] || ps[0].timestamp > cutoff then 0 else 1 + FirstNewer(ps[1..], cutoff)
  }

  /** On a time-ordered buffer, everything from the first point newer than
      the cutoff onwards is newer than the cutoff. */
  lemma SortedTailNewer(ps: seq<PricePoint>, cutoff: int, k: nat)
    requires Sorted(ps)
    requires k <= |ps| && (k < |ps| ==> ps[k].timestamp > cutoff)
    ensures forall i :: 0 <= i < |ps[k..]| ==> ps[k..][i].timestamp > cutoff
  {
  }

  /** On a time-ordered buffer the survivors of a prune are a suffix of it. */
  lemma {:induction false} PruneSortedIsSuffix(ps: seq<PricePoint>, cutoff: int)
    requires Sorted(ps)
    ensures exists k :: 0 <= k <= |ps| && Prune(ps, cutoff) == ps[k..]
  {
    var k := FirstNewer(ps, cutoff);
    var older, newer := ps[..k], ps[k..];
    assert ps == older + newer;
    PruneAppend(older, newer, cutoff);
    assert forall i :: 0 <= i < |older| ==> older[i].timestamp <= cutoff;
    PruneDropsAll(older, cutoff);
    SortedTailNewer(ps, cutoff, k);
    PruneKeepsAll(newer, cutoff);
    assert Prune(ps, cutoff) == newer;
  }

  /** The message handler: append the tick stamped `nowMs`, then prune
      everything at or before `nowMs - RetentionMs`. */
  function Ingest(ps: seq<PricePoint>, price: real, nowMs: int): (r: seq<PricePoint>)
    requires price > 0.0
    ensures forall p :: p in r ==> p.timestamp > nowMs - RetentionMs
    ensures r == Prune(ps, nowMs - RetentionMs) + [PricePoint(nowMs, price)]
    ensures forall p :: p in r <==> (p in ps && p.timestamp > nowMs - RetentionMs) || p == PricePoint(nowMs, price)
  {
    PruneAppend(ps, [PricePoint(nowMs, price)], nowMs - RetentionMs);
    PruneMembers(ps + [PricePoint(nowMs, price)], nowMs - RetentionMs);
    Prune(ps + [PricePoint(nowMs, price)], nowMs - RetentionMs)
  }

  /** Ingesting a positive price keeps every buffered price positive. */
  lemma IngestKeepsPricesPositive(ps: seq<PricePoint>, price: real, nowMs: int)
    requires PositivePrices(ps) && price > 0.0
    ensures PositivePrices(Ingest(ps, price, nowMs))
  {
  }

  /** On a time-ordered buffer whose points are not in the future, ingest
      yields a suffix of the old buffer followed by the new point, and the
      result is still time-ordered. */
  lemma IngestSorted(ps: seq<PricePoint>, price: real, nowMs: int)
    requires price > 0.0
    requires Sorted(ps)
    requires forall i :: 0 <= i < |ps| ==> ps[i].timestamp <= nowMs
    ensures exists k :: 0 <= k <= |ps| && Ingest(ps, price, nowMs) == ps[k..] + [PricePoint(nowMs, price)]
    ensures Sorted(Ingest(ps, price, nowMs))
  {
    PruneSortedIsSuffix(ps, nowMs - RetentionMs);
    var k :| 0 <= k <= |ps| && Prune(ps, nowMs - RetentionMs) == ps[k..];
    SortedAppend(ps[k..], PricePoint(nowMs, price));
  }

  /** Appending a point no older than any buffered point keeps a suffix of a
      time-ordered buffer time-ordered. */
  lemma SortedAppend(ps: seq<PricePoint>, p: PricePoint)
    requires Sorted(ps)
    requires forall i :: 0 <= i < |ps| ==> ps[i].timestamp <= p.timestamp
    ensures Sorted(ps + [p])
  {
  }

  /** `getCurrentPrice`: the price of the most recent point, if any. */
  function CurrentPrice(ps: seq<PricePoint>): (r: Option<real>)
    ensures r.None? <==> |ps| == 0
    ensures r.Some? ==> r.value == ps[|ps| - 1].price
  {
    if |ps| == 0 then None else Some(ps[|ps| - 1].price)
  }

  /** After an ingest the current price is the price just ingested. */
  lemma CurrentPriceAfterIngest(ps: seq<PricePoint>, price: real, nowMs: int)
    requires price > 0.0
    ensures CurrentPrice(Ingest(ps, price, nowMs)) == Some(price)
  {
  }

  /** `now - windowSeconds * 1000`. */
  function Cutoff(nowMs: int, windowSeconds: real): real {
    nowMs as real - windowSeconds * 1000.0
  }

  predicate AtOrBefore(p: PricePoint, cutoff: real) {
    p.timestamp as real <= cutoff
  }

  /** The `pastPrices` filter: points at or before `cutoff`, in order. */
  function PastPoints(ps: seq<PricePoint>, cutoff: real): (r: seq<PricePoint>)
    ensures |r| <= |ps|
  {
    if ps == [] then []
    else
      var last := ps[|ps| - 1];
      PastPoints(ps[..|ps| - 1], cutoff) + (if AtOrBefore(last, cutoff) then [last] else [])
  }

  /** A point passes the filter iff it was in the buffer at or before the cutoff. */
  lemma {:induction false} PastPointsMembers(ps: seq<PricePoint>, cutoff: real)
    ensures forall p :: p in PastPoints(ps, cutoff) <==> p in ps && AtOrBefore(p, cutoff)
    decreases |ps|
  {
    if ps != [] {
      var init := ps[..|ps| - 1];
      PastPointsMembers(init, cutoff);
      assert ps == init + [ps[|ps| - 1]];
    }
  }

  /** Index `i` is the reference point of a momentum computation: the last
      point at or before the cutoff. */
  predicate IsReference(ps: seq<PricePoint>, i: int, cutoff: real) {
    && 0 <= i < |ps|
    && AtOrBefore(ps[i], cutoff)
    && forall j :: i < j < |ps| ==> !AtOrBefore(ps[j], cutoff)
  }

  /** The last element of the `pastPrices` filter is the reference point. */
  lemma {:induction false} LastPastPointIsReference(ps: seq<PricePoint>, cutoff: real)
    requires |PastPoints(ps, cutoff)| > 0
    ensures exists i :: IsReference(ps, i, cutoff) && ps[i] == PastPoints(ps, cutoff)[|PastPoints(ps, cutoff)| - 1]
    decreases |ps|
  {
    var n := |ps|;
    var init := ps[..n - 1];
    var last := ps[n - 1];
    assert PastPoints(ps, cutoff) == PastPoints(init, cutoff) + (if AtOrBefore(last, cutoff) then [last] else []);
    if AtOrBefore(last, cutoff) {
      assert IsReference(ps, n - 1, cutoff);
    } else {
      LastPastPointIsReference(init, cutoff);
      var i :| IsReference(init, i, cutoff) && init[i] == PastPoints(init, cutoff)[|PastPoints(init, cutoff)| - 1];
      assert forall j :: i < j < n - 1 ==> ps[j] == init[j];
      assert IsReference(ps, i, cutoff);
    }
  }

  /** At most one index is the reference point. */
  lemma ReferenceUnique(ps: seq<PricePoint>, i: int, j: int, cutoff: real)
    requires IsReference(ps, i, cutoff) && IsReference(ps, j, cutoff)
    ensures i == j
  {
  }

  /** Percent change from `past` to `current`. */
  function PercentChange(past: real, current: real): real
    requires past != 0.0
  {
    (current - past) / past * 100.0
  }

  /** `calculateMomentum(windowSeconds)`: unavailable with fewer than two
      points or without a point at or before the cutoff; otherwise the
      percent change from the last point at or before the cutoff to the
      latest point. */
  function CalculateMomentum(ps: seq<PricePoint>, nowMs: int, windowSeconds: real): (r: Option<real>)
    requires PositivePrices(ps)
    ensures r.None? <==> |ps| < 2 || forall i :: 0 <= i < |ps| ==> !AtOrBefore(ps[i], Cutoff(nowMs, windowSeconds))
    ensures r.Some? ==> exists i :: IsReference(ps, i, Cutoff(nowMs, windowSeconds))
                                  && r.value == PercentChange(ps[i].price, ps[|ps| - 1].price)
  {
    if |ps| < 2 then None
    else
      var past := PastPoints(ps, Cutoff(nowMs, windowSeconds));
      PastPointsCases(ps, Cutoff(nowMs, windowSeconds));
      if |past| == 0 then None
      else Some(PercentChange(past[|past| - 1].price, ps[|ps| - 1].price))
  }

  /** The `pastPrices` filter is empty iff no point is at or before the
      cutoff; otherwise its last element is the (positive-priced) reference. */
  lemma {:induction false} PastPointsCases(ps: seq<PricePoint>, cutoff: real)
    requires PositivePrices(ps)
    ensures |PastPoints(ps, cutoff)| == 0 <==> forall i :: 0 <= i < |ps| ==> !AtOrBefore(ps[i], cutoff)
    ensures |PastPoints(ps, cutoff)| > 0 ==>
              var past := PastPoints(ps, cutoff);
              && past[|past| - 1].price > 0.0
              && exists i :: IsReference(ps, i, cutoff) && ps[i] == past[|past| - 1]
  {
    var past := PastPoints(ps, cutoff);
    PastPointsMembers(ps, cutoff);
    if |past| == 0 {
      forall i | 0 <= i < |ps|
        ensures !AtOrBefore(ps[i], cutoff)
      {
        assert ps[i] in ps;
      }
    } else {
      LastPastPointIsReference(ps, cutoff);
      assert past[0] in past;
    }
  }

  /** Momentum is determined by the reference point: whichever point is the
      reference, the momentum is the percent change from it. */
  lemma MomentumFromReference(ps: seq<PricePoint>, nowMs: int, windowSeconds: real, i: int)
    requires PositivePrices(ps)
    requires IsReference(ps, i, Cutoff(nowMs, windowSeconds))
    ensures |ps| >= 2 ==> CalculateMomentum(ps, nowMs, windowSeconds)
                          == Some(PercentChange(ps[i].price, ps[|ps| - 1].price))
  {
    var r := CalculateMomentum(ps, nowMs, windowSeconds);
    if |ps| >= 2 {
      var j :| IsReference(ps, j, Cutoff(nowMs, windowSeconds))
               && r.value == PercentChange(ps[j].price, ps[|ps| - 1].price);
      ReferenceUnique(ps, i, j, Cutoff(nowMs, windowSeconds));
    }
  }

  /** The index of the last point at or before the cutoff, when there is one. */
  function LastAtOrBefore(ps: seq<PricePoint>, cutoff: real): (i: int)
    requires exists i :: 0 <= i < |ps| && AtOrBefore(ps[i], cutoff)
    ensures IsReference(ps, i, cutoff)
    decreases |ps|
  {
    if AtOrBefore(ps[|ps| - 1], cutoff) then |ps| - 1
    else
      var i :| 0 <= i < |ps| && AtOrBefore(ps[i], cutoff);
      assert 0 <= i < |ps| - 1 && AtOrBefore(ps[..|ps| - 1][i], cutoff);
      LastAtOrBefore(ps[..|ps| - 1], cutoff)
  }

  /** `qs` is `ps` with every timestamp moved by `delta`, prices unchanged. */
  predicate ShiftedBy(ps: seq<PricePoint>, qs: seq<PricePoint>, delta: int) {
    && |qs| == |ps|
    && forall i :: 0 <= i < |ps| ==> qs[i].price == ps[i].price && qs[i].timestamp == ps[i].timestamp + delta
  }

  /** Shifting the buffer and the cutoff together keeps which points are at
      or before the cutoff, and so which point is the reference. */
  lemma ShiftKeepsReference(ps: seq<PricePoint>, qs: seq<PricePoint>, delta: int, cutoff: real)
    requires ShiftedBy(ps, qs, delta)
    ensures forall i :: 0 <= i < |ps| ==> (AtOrBefore(qs[i], cutoff + delta as real) <==> AtOrBefore(ps[i], cutoff))
    ensures forall i :: IsReference(qs, i, cutoff + delta as real) <==> IsReference(ps, i, cutoff)
  {
  }

  /** Two buffers of positive prices and the same length (at least two),
      whose reference points sit at the same index with the same price, and
      whose latest prices agree. */
  predicate SharedReference(ps: seq<PricePoint>, nowMs: int, qs: seq<PricePoint>, laterMs: int,
                            windowSeconds: real, i: int) {
    && PositivePrices(ps) && PositivePrices(qs)
    && 2 <= |ps| == |qs|
    && IsReference(ps, i, Cutoff(nowMs, windowSeconds)) && IsReference(qs, i, Cutoff(laterMs, windowSeconds))
    && ps[i].price == qs[i].price && ps[|ps| - 1].price == qs[|qs| - 1].price
  }

  /** Two buffers of the same length whose reference points sit at the same
      index with the same price, and whose latest prices agree, have the
      same momentum. */
  lemma SameReferenceSameMomentum(ps: seq<PricePoint>, nowMs: int, qs: seq<PricePoint>, laterMs: int,
                                  windowSeconds: real, i: int)
    requires SharedReference(ps, nowMs, qs, laterMs, windowSeconds, i)
    ensures CalculateMomentum(qs, laterMs, windowSeconds) == CalculateMomentum(ps, nowMs, windowSeconds)
  {
    MomentumFromReference(ps, nowMs, windowSeconds, i);
    MomentumFromReference(qs, laterMs, windowSeconds, i);
  }

  /** With a reference point before the shift, the shifted buffer shares it
      at the shifted clock. */
  lemma ShiftedReferenceShared(ps: seq<PricePoint>, qs: seq<PricePoint>, nowMs: int, windowSeconds: real,
                               delta: int, i: int)
    requires PositivePrices(ps) && |ps| >= 2
    requires ShiftedBy(ps, qs, delta)
    requires IsReference(ps, i, Cutoff(nowMs, windowSeconds))
    ensures SharedReference(ps, nowMs, qs, nowMs + delta, windowSeconds, i)
  {
    assert Cutoff(nowMs + delta, windowSeconds) == Cutoff(nowMs, windowSeconds) + delta as real;
    ShiftKeepsReference(ps, qs, delta, Cutoff(nowMs, windowSeconds));
  }

  /** Without a point at or before the cutoff, the shifted buffer has none
      at or before the shifted cutoff either. */
  lemma ShiftedNoPastPoint(ps: seq<PricePoint>, qs: seq<PricePoint>, nowMs: int, windowSeconds: real, delta: int)
    requires ShiftedBy(ps, qs, delta)
    requires forall i :: 0 <= i < |ps| ==> !AtOrBefore(ps[i], Cutoff(nowMs, windowSeconds))
    ensures forall i :: 0 <= i < |qs| ==> !AtOrBefore(qs[i], Cutoff(nowMs + delta, windowSeconds))
  {
    assert Cutoff(nowMs + delta, windowSeconds) == Cutoff(nowMs, windowSeconds) + delta as real;
    ShiftKeepsReference(ps, qs, delta, Cutoff(nowMs, windowSeconds));
  }

  /** Momentum is invariant under a uniform time shift of the buffer and the
      clock: it depends on the prices and on the times relative to now only. */
  lemma MomentumShiftInvariant(ps: seq<PricePoint>, qs: seq<PricePoint>, nowMs: int, windowSeconds: real, delta: int)
    requires PositivePrices(ps)
    requires ShiftedBy(ps, qs, delta)
    ensures PositivePrices(qs)
    ensures CalculateMomentum(qs, nowMs + delta, windowSeconds) == CalculateMomentum(ps, nowMs, windowSeconds)
  {
    if |ps| >= 2 && exists i :: 0 <= i < |ps| && AtOrBefore(ps[i], Cutoff(nowMs, windowSeconds)) {
      var i := LastAtOrBefore(ps, Cutoff(nowMs, windowSeconds));
      ShiftedReferenceShared(ps, qs, nowMs, windowSeconds, delta, i);
      SameReferenceSameMomentum(ps, nowMs, qs, nowMs + delta, windowSeconds, i);
    } else if |ps| >= 2 {
      ShiftedNoPastPoint(ps, qs, nowMs, windowSeconds, delta);
    }
  }
}

=== FILE: probability.dfy ===
/** `ArbitrageStrategy.calculateRealProbability`, identical in both bots:
    momentum above the threshold calls UP, below its negation calls DOWN,
    with a linear confidence ramp capped at 85%; anything else is NEUTRAL
    with the uninformative 50% prior. */
module Probability {

  datatype Direction = Up | Down | Neutral

  /** The direction as the source spells it. */
  function DirectionName(d: Direction): string {
    match d
    case Up => "UP"
    case Down => "DOWN"
    case Neutral => "NEUTRAL"
  }

  datatype Estimate = Estimate(prob: real, direction: Direction)

  const Cap: real := 0.85
  const Base: real := 0.55
  const Slope: real := 0.15
  const Prior: real := 0.5

  function Min(a: real, b: real): (m: real)
    ensures m <= a && m <= b
    ensures m == a || m == b
  {
    if a <= b then a else b
  }

  function Abs(x: real): (a: real)
    ensures a >= 0.0
    ensures a == x || a == -x
  {
    if x < 0.0 then -x else x
  }

  /** `Math.min(0.85, 0.55 + (x / threshold) * 0.15)`. A zero threshold
      only reaches here with `x > 0`, where the ratio is +Infinity and the
      cap applies. */
  function Confidence(x: real, threshold: real): (p: real)
    requires x > 0.0 || threshold != 0.0
    ensures p <= Cap
  {
    if threshold == 0.0 then Cap else Min(Cap, Base + (x / threshold) * Slope)
  }

  /** `calculateRealProbability(momentum)` with the configured threshold. */
  function CalculateRealProbability(momentum: real, threshold: real): (e: Estimate)
    ensures e.direction == Up <==> momentum > threshold
    ensures e.direction == Down <==> momentum <= threshold && momentum < -threshold
    ensures e.direction == Neutral <==> -threshold <= momentum <= threshold
    ensures e.direction == Neutral ==> e.prob == Prior
    ensures e.prob <= Cap
    ensures threshold > 0.0 && e.direction != Neutral ==> Base + Slope < e.prob
    ensures threshold > 0.0 && e.direction != Neutral ==>
              e.prob == Min(Cap, Base + Abs(momentum) / threshold * Slope)
    ensures threshold == 0.0 && e.direction != Neutral ==> e.prob == Cap
  {
    if momentum > threshold then
      Estimate(Confidence(momentum, threshold), Up)
    else if momentum < -threshold then
      Estimate(Confidence(Abs(momentum), threshold), Down)
    else
      Estimate(Prior, Neutral)
  }

  /** Momentum exactly at the threshold is noise, not a signal. */
  lemma ThresholdIsNeutral(threshold: real)
    requires threshold >= 0.0
    ensures CalculateRealProbability(threshold, threshold) == Estimate(Prior, Neutral)
    ensures CalculateRealProbability(-threshold, threshold) == Estimate(Prior, Neutral)
  {
  }

  /** With a positive threshold the estimate is symmetric: negated momentum
      gives the same confidence in the opposite direction. */
  lemma EstimateSymmetric(momentum: real, threshold: real)
    requires threshold > 0.0
    ensures var e := CalculateRealProbability(momentum, threshold);
            var f := CalculateRealProbability(-momentum, threshold);
            && e.prob == f.prob
            && (e.direction == Up <==> f.direction == Down)
            && (e.direction == Neutral <==> f.direction == Neutral)
  {
  }

  /** With a positive threshold, stronger upward momentum never lowers the
      estimated probability of UP. */
  lemma UpConfidenceMonotone(m1: real, m2: real, threshold: real)
    requires 0.0 < threshold < m1 <= m2
    ensures CalculateRealProbability(m1, threshold).prob <= CalculateRealProbability(m2, threshold).prob
  {
    assert m1 / threshold <= m2 / threshold by {
      assert m2 / threshold - m1 / threshold == (m2 - m1) / threshold;
    }
  }

  /** Twice the threshold already reaches the cap: 0.55 + 2 * 0.15 = 0.85. */
  lemma TwiceThresholdReachesCap(threshold: real)
    requires threshold > 0.0
    ensures CalculateRealProbability(2.0 * threshold, threshold) == Estimate(Cap, Up)
  {
  }
}

=== FILE: text.dfy ===
/** Character and string helpers the bots use: ASCII lower-casing, substring
    search (`String.prototype.includes`), decimal rendering of integers (template
    literals) and decimal parsing of digit strings (`parseInt`). */
module Text {

  predicate IsUpper(c: char) {
    'A' <= c <= 'Z'
  }

  /** `toLowerCase` on one character, restricted to the ASCII letters. */
  function LowerChar(c: char): (l: char)
    ensures !IsUpper(l)
    ensures !IsUpper(c) ==> l == c
  {
    if IsUpper(c) then (c as int + 32) as char else c
  }

  /** `toLowerCase` on ASCII: no upper-case letter is left. */
  function Lower(s: string): (l: string)
    ensures |l| == |s|
    ensures forall i :: 0 <= i < |l| ==> !IsUpper(l[i])
  {
    seq(|s|, i requires 0 <= i < |s| => LowerChar(s[i]))
  }

  /** `sub` occurs in `s` starting at position `i`. */
  predicate OccursAt(s: string, sub: string, i: int) {
    0 <= i <= |s| - |sub| && s[i..i + |sub|] == sub
  }

  /** `s.includes(sub)`. */
  predicate Contains(s: string, sub: string) {
    exists i :: 0 <= i <= |s| - |sub| && OccursAt(s, sub, i)
  }

  predicate IsDigit(c: char) {
    '0' <= c <= '9'
  }

  predicate AllDigits(s: string) {
    forall i :: 0 <= i < |s| ==> IsDigit(s[i])
  }

  function DigitChar(d: nat): (c: char)
    requires d < 10
    ensures IsDigit(c)
  {
    ('0' as int + d) as char
  }

  function DigitValue(c: char): (d: nat)
    requires IsDigit(c)
    ensures d < 10
    ensures DigitChar(d) == c
  {
    c as int - '0' as int
  }

  function Pow10(k: nat): (p: nat)
    ensures p >= 1
  {
    if k == 0 then 1 else 10 * Pow10(k - 1)
  }

  /** Decimal digits of `n`, most significant first, without leading zeros. */
  function NatToString(n: nat): (s: string)
    ensures |s| >= 1
    ensures AllDigits(s)
    decreases n
  {
    if n < 10 then [DigitChar(n)] else NatToString(n / 10) + [DigitChar(n % 10)]
  }

  /** How a template literal renders an integral number (below 1e21). */
  function IntToString(i: int): (s: string)
    ensures i >= 0 ==> AllDigits(s) && ParseDigits(s) == i
    ensures i >= 0 ==> |s| >= 1 && (|s| == 1 || s[0] != '0')
    ensures i < 0 ==> |s| >= 2 && s[0] == '-' && AllDigits(s[1..]) && ParseDigits(s[1..]) == -i
    ensures i < 0 ==> |s| == 2 || s[1] != '0'
  {
    if i < 0 then
      ParseNatToString(-i);
      NoLeadingZero(-i);
      assert ("-" + NatToString(-i))[1..] == NatToString(-i);
      "-" + NatToString(-i)
    else
      ParseNatToString(i);
      NoLeadingZero(i);
      NatToString(i)
  }

  /** The rendering of a natural number is "0" or starts with a non-zero digit. */
  lemma {:induction false} NoLeadingZero(n: nat)
    ensures |NatToString(n)| == 1 || NatToString(n)[0] != '0'
    decreases n
  {
    if n >= 10 {
      NoLeadingZero(n / 10);
    }
  }

  /** `parseInt` of a string made only of decimal digits. */
  function ParseDigits(s: string): nat
    requires AllDigits(s)
  {
    if s == [] then 0 else ParseDigits(s[..|s| - 1]) * 10 + DigitValue(s[|s| - 1])
  }

  /** Parsing the rendering of a natural number gives the number back. */
  lemma {:induction false} ParseNatToString(n: nat)
    ensures ParseDigits(NatToString(n)) == n
    decreases n
  {
    var s := NatToString(n);
    if n < 10 {
      assert s[..0] == [];
    } else {
      ParseNatToString(n / 10);
      assert s[..|s| - 1] == NatToString(n / 10);
      assert DigitValue(s[|s| - 1]) == n % 10;
    }
  }

  /** A number with exactly k + 1 digits renders as k + 1 characters. */
  lemma {:induction false} NatToStringLength(n: nat, k: nat)
    requires Pow10(k) <= n < Pow10(k + 1)
    ensures |NatToString(n)| == k + 1
    decreases k
  {
    if k == 0 {
      assert n < 10;
    } else {
      assert n >= 10;
      assert Pow10(k - 1) <= n / 10 < Pow10(k);
      NatToStringLength(n / 10, k - 1);
    }
  }

  /** A number below 10^k (k >= 1) renders in at most k characters. */
  lemma {:induction false} NatToStringShort(n: nat, k: nat)
    requires 1 <= k && n < Pow10(k)
    ensures |NatToString(n)| <= k
    decreases k
  {
    if n >= 10 {
      assert k >= 2;
      assert n / 10 < Pow10(k - 1);
      NatToStringShort(n / 10, k - 1);
    }
  }
}

=== FILE: wrappers.dfy ===
/** The optional value that the bots express with `null` (a missing market,
    an unavailable momentum or price). */
module Wrappers {

  datatype Option<+T> = None | Some(value: T) {

    /** What `x ?? fallback` gives in the bots. */
    function GetOr(fallback: T): T {
      if Some? then value else fallback
    }
  }
}
